=== FILE: README.md ===
# Telemetry front end: a verified model of its core logic

This project models the computational core of the telemetry front end `formula-frontend-maqueta-v0`,
a Next.js application that shows racing telemetry. The model covers four pieces of the code:

- **The deep-engineering view** (`components/telemetry/deep-engineering-view.tsx`). This is the mock
  trace generator `generateTelemetryData`: 82 samples, one every 50 m, with clamped and rounded
  speeds, RPMs and pedals and a three-decimal delta. It also covers the figure-8 car position on the
  track map, the scrubber-to-sample cursor, and the "time lost in sector" window and sum.
  Modules `MockSamples`, `MockTrace` and `EngineeringView`.
- **The display formatters** (`lib/utils/formatters.ts`): lap time `M:SS.mmm`, duration `Hh Mm Ss`,
  distance in km and rounded speed. Module `Formatters`. Each formatter comes with a parser for its
  own output, and the lemmas state what a reader of the text gets back.
- **The `useTelemetry` hook** (`hooks/use-telemetry.ts`). Its state is the session, the loading flag
  and the error, and each of its five operations is a transition function. Sequences of operations
  are related to "last writer wins" reference definitions. Module `TelemetryHook`.
- **The pure parts of the API client** (`lib/api/telemetry.ts`). This covers the base-URL
  normalisation, the endpoint URLs (with a route parser proved to invert them), the `handleResponse`
  classification into results and `ApiError`s, and how `fetchSessions` and `uploadFileViaStorage`
  chain requests. Module `TelemetryApi`.

Supporting modules model the JavaScript built-ins the code relies on:

- `Numeric`: `Math.round`, `Math.floor`, truncation, the `%` remainder, and the max/min clamp idiom.
- `Decimal`: `String(n)` for integers, `Number.prototype.toFixed` as in section 21.1.3.3 of
  ECMA-262 on exact reals, and parsers for both.
- `Strings`: `padStart`, and `split` at one character together with its inverse `Join`.
- `Wrappers`: `Option` and `Result`.
- `TelemetryTypes`: the records of `lib/types/telemetry.ts`.

Numbers are exact reals rather than IEEE doubles.

`Math.sin`, `Math.cos` and `Math.random` are parameters:

- The sine and cosine are a `Trig` record. The predicates `UnitRange` (values in [-1, 1]) and
  `Periodic` (period 2π) state what is assumed of them.
- `Math.random` is a stream `Draws` of draws indexed by call order. The predicate `Uniform` says
  every draw lies in [0, 1).
- The generator consumes draws in statement order: reference RPM, current RPM, throttle, brake
  (only in a corner), then noise. That is five draws on a corner sample and four on any other.

A request's network response enters the model as a value. The hook receives the classified outcome
of its request as a `Result`.

Three details of the code that the model keeps:

- The sector size is `length / 3` as a real number (27.33... for 82 samples), not a whole number.
  `slice` then truncates the fractional start. For the cursor at index 28 the window therefore starts
  at sample 27, which lies in sector 0 (`EngineeringView.SectorWindowStraddles`).
- The "time lost" window is `[trunc(sectorStart), cursor)`. It is empty only when the cursor sits on
  a sector start that is a whole number (`EngineeringView.EmptyWindowAtWholeStart`). For 82 samples
  the sectors 1 and 2 start at 27.33... and 54.66..., so that happens only at index 0
  (`EngineeringView.EmptyWindowOnlyAtZero`); at the start of sectors 1 and 2 the window still
  holds the sample before the sector.
- The generator's delta is computed from the unrounded speeds and includes a noise term.

## Model

| member | source | states |
|---|---|---|
| Numeric.Clamp | components/telemetry/deep-engineering-view.tsx:26-31 | `Math.max(lo, Math.min(hi, v))` stays in [lo, hi], keeps in-range values, and sends values below or above to the nearer bound |
| Numeric.Round | components/telemetry/deep-engineering-view.tsx:43-48 | `Math.round` gives the integer r with x - 1/2 < r <= x + 1/2 |
| Numeric.RoundWithin | components/telemetry/deep-engineering-view.tsx:43-48 | rounding a value that lies between two integers keeps it between them |
| Numeric.RoundHalfUp | lib/utils/formatters.ts:32 | `Math.round` sends k + 1/2 to k + 1 |
| Numeric.RoundMonotone | lib/utils/formatters.ts:32 | `Math.round` preserves order |
| Numeric.RoundInteger | lib/utils/formatters.ts:32 | `Math.round` is the identity on integers |
| Numeric.JsRem | lib/utils/formatters.ts:4 | the JavaScript `%` takes the dividend's sign, stays below the divisor in magnitude, and is x - y·floor(x/y) for x >= 0 |
| Numeric.JsRemOdd | lib/utils/formatters.ts:4 | `%` is odd in its dividend: (-x) % y is -(x % y), which fixes the value for negative dividends from the non-negative case |
| Numeric.Trunc | components/telemetry/deep-engineering-view.tsx:143 | the truncation `slice` applies to a fractional index rounds towards zero |
| Strings.PadStart | lib/utils/formatters.ts:5 | `padStart(width, c)` leaves long strings alone; otherwise the result is exactly `width` long, ends in the original and is filled with `c` in front |
| Decimal.IntToString | lib/utils/formatters.ts:6 | `String(n)` is a canonical numeral, with a leading `-` for negatives |
| Decimal.IntRoundTrip | lib/utils/formatters.ts:6 | reading back `String(n)` gives n |
| Decimal.ToFixed | lib/utils/formatters.ts:5 | `toFixed(f)` text is digits with a point before the last f of them, preceded by `-` for negatives, and the digits before the point carry no superfluous leading zero |
| Decimal.FixedRoundTrip | lib/utils/formatters.ts:5 | reading back `x.toFixed(f)` gives x rounded to f decimals |
| Decimal.FixedError | lib/utils/formatters.ts:27 | the value `toFixed(f)` denotes is within half a unit in the f-th decimal of x |
| Decimal.ZeroPaddedFixed | lib/utils/formatters.ts:5 | zeros padded in front of `toFixed` text do not change what it reads as |
| Formatters.LapTimeSplit | lib/utils/formatters.ts:3-4 | for s >= 0 the minute field is >= 0, the seconds field lies in [0, 60), and s = 60·mins + secs |
| Formatters.SecondsFieldShape | lib/utils/formatters.ts:5 | for seconds in [0, 60) the padded field is six characters `SS.mmm` |
| Formatters.LapTimeRoundTrip | lib/utils/formatters.ts:2-7 | lap-time text reads back as the minute count and the seconds rounded to milliseconds |
| Formatters.LapTimeAccuracy | lib/utils/formatters.ts:2-7 | for s >= 0 the time a reader reconstructs is within half a millisecond of s |
| Formatters.LapTimeRollover | lib/utils/formatters.ts:3-6 | a remainder of 59.9995 s or more prints `60.000` after the unchanged minute count |
| Formatters.RolloverExample | lib/utils/formatters.ts:2-7 | 119.9996 s prints as `1:60.000` |
| Formatters.CarriedExample | lib/utils/formatters.ts:2-7 | with the rounding carried into the minutes, 119.9996 s prints as `2:00.000` |
| Formatters.LapTimeCarriedAccuracy | lib/utils/formatters.ts:2-7 | rounding the whole time before splitting gives a seconds field below 60, a time within half a millisecond, and minutes >= 0 |
| Formatters.DurationDecomposition | lib/utils/formatters.ts:11-13 | for s >= 0: hours >= 0, minutes and seconds in [0, 59], and 3600·h + 60·m + sec = floor(s) |
| Formatters.DurationShape | lib/utils/formatters.ts:15-21 | three fields exactly when hours > 0, two exactly when hours = 0 < minutes, one otherwise |
| Formatters.DurationRoundTrip | lib/utils/formatters.ts:10-22 | duration text of s >= 0 reads back as floor(s) seconds |
| Formatters.OneHour | lib/utils/formatters.ts:16 | lower fields print even when zero: 3600 s is `1h 0m 0s` |
| Formatters.UnitFieldRoundTrip | lib/utils/formatters.ts:16-21 | a field `<n><unit>` holds no space and reads back as n |
| Formatters.DistanceRoundTrip | lib/utils/formatters.ts:25-28 | distance text reads back as meters/1000 rounded to one decimal, within 0.05 km |
| Formatters.SpeedRoundTrip | lib/utils/formatters.ts:31-33 | speed text reads back as an integer within half a unit of the speed, halves going up |
| Formatters.SpeedHalvesUp | lib/utils/formatters.ts:32 | k + 0.5 prints as k + 1 |
| Formatters.FormatLapTime | lib/utils/formatters.ts:2-7 | `formatLapTime`; no contract of its own: LapTimeSplit, LapTimeRoundTrip, LapTimeAccuracy, LapTimeRollover and RolloverExample give its meaning |
| Formatters.LapMinutes | lib/utils/formatters.ts:3 | `mins`; no contract of its own: LapTimeSplit and LapTimeRoundTrip give its meaning |
| Formatters.LapSeconds | lib/utils/formatters.ts:4 | `secs`; no contract of its own: LapTimeSplit, LapTimeRollover and JsRem give its meaning |
| Formatters.SecondsField | lib/utils/formatters.ts:5 | `secsFormatted`; no contract of its own: SecondsFieldShape, SecondsFieldValue and ZeroPaddedFixed give its meaning |
| Formatters.SecondsFieldValue | lib/utils/formatters.ts:5 | the padded seconds field reads back as the seconds rounded to milliseconds and holds no `:` |
| Formatters.FormatLapTimeCarried | lib/utils/formatters.ts:2-7 | the corrected lap-time formatter; no contract of its own: CarriedExample and LapTimeCarriedAccuracy give its meaning |
| Formatters.FormatDuration | lib/utils/formatters.ts:10-22 | `formatDuration`; no contract of its own: DurationDecomposition, DurationShape, DurationRoundTrip and OneHour give its meaning |
| Formatters.DurationHours | lib/utils/formatters.ts:11 | `hours`; no contract of its own: DurationDecomposition and DurationShape give its meaning |
| Formatters.DurationMinutes | lib/utils/formatters.ts:12 | `mins`; no contract of its own: DurationDecomposition and DurationShape give its meaning |
| Formatters.DurationSeconds | lib/utils/formatters.ts:13 | `secs`; no contract of its own: DurationDecomposition gives its meaning |
| Formatters.FormatDistance | lib/utils/formatters.ts:25-28 | `formatDistance`; no contract of its own: DistanceRoundTrip gives its meaning |
| Formatters.FormatSpeed | lib/utils/formatters.ts:31-33 | `formatSpeed`; no contract of its own: SpeedRoundTrip and SpeedHalvesUp give its meaning |
| MockSamples.ClampedReadings | components/telemetry/deep-engineering-view.tsx:25-31 | for any sine and any draws, the speeds lie in [80, 260] and [80, 255] and both RPMs in [4000, 8000] |
| MockSamples.PedalsByCorner | components/telemetry/deep-engineering-view.tsx:34-36 | in a corner the throttle is in [30, 60) and the brake in [60, 100); elsewhere the throttle is in [85, 100) and the brake 0 |
| MockSamples.DeltaNoise | components/telemetry/deep-engineering-view.tsx:39 | the unrounded delta is (ref - current)/200 plus noise in [-0.05, 0.05) |
| MockSamples.DeltaSign | components/telemetry/deep-engineering-view.tsx:39 | more than 10 km/h ahead of the reference gives a negative delta, more than 10 behind a positive one, and rounding keeps the sign weakly |
| MockSamples.FixedWithin | components/telemetry/deep-engineering-view.tsx:49 | `Number(x.toFixed(3))` stays within bounds that are whole thousandths |
| MockSamples.SampleInRanges | components/telemetry/deep-engineering-view.tsx:25-50 | every pushed sample has its rounded values in the clamp ranges, the pedals in the corner or straight ranges, and the delta in [-0.925, 0.95] |
| MockSamples.BrakeMeansCorner | components/telemetry/deep-engineering-view.tsx:34-36 | after rounding, a sample brakes exactly in corners, and a braking sample has throttle <= 60 |
| MockSamples.Simulate | components/telemetry/deep-engineering-view.tsx:22-39 | one loop iteration before rounding; no contract of its own: ClampedReadings, PedalsByCorner, DeltaNoise and DeltaSign give its meaning |
| MockSamples.ToSample | components/telemetry/deep-engineering-view.tsx:41-50 | the pushed, rounded sample; no contract of its own: SampleInRanges, BrakeMeansCorner and FixedWithin give its meaning |
| MockTrace.CollectSamples | components/telemetry/deep-engineering-view.tsx:18-53 | the loop over 0, 50, ..., 4050 returns the step-by-step unfolding of the generator: 82 samples |
| MockTrace.GenerateTelemetryData | components/telemetry/deep-engineering-view.tsx:18-53 | the trace has 82 samples, sample k at distance 50·k, and with draws in [0, 1) every sample within the ranges |
| MockTrace.TraceDistances | components/telemetry/deep-engineering-view.tsx:20-21 | the distances run from 0 to 4050 in steps of 50 and strictly increase |
| MockTrace.TraceInRanges | components/telemetry/deep-engineering-view.tsx:20-50 | with draws in [0, 1) every sample of the whole trace is within the ranges |
| MockTrace.UnfoldDistances | components/telemetry/deep-engineering-view.tsx:20-21 | a loop from i whose every step records its own distance yields (4100 - i)/50 samples at i, i + 50, ... |
| EngineeringView.CarPositionInView | components/telemetry/deep-engineering-view.tsx:58-69 | for sine and cosine in [-1, 1] the car lies in x ∈ [70, 330], y ∈ [30, 270], inside the 400×300 view box |
| EngineeringView.CarPositionLoops | components/telemetry/deep-engineering-view.tsx:58-64 | progress p + 1 puts the car where progress p does |
| EngineeringView.Progress | components/telemetry/deep-engineering-view.tsx:282 | the map progress `scrubberPosition / 100` lies in [0, 1] |
| EngineeringView.MapCarInView | components/telemetry/deep-engineering-view.tsx:282 | for every scrubber position the car drawn from `scrubberPosition / 100` lies inside the view box, and both ends of the scrubber show the same point |
| EngineeringView.CursorIndex | components/telemetry/deep-engineering-view.tsx:136 | for a scrubber in [0, 100] the index lies in [0, len - 1], is 0 at 0 and len - 1 at 100 |
| EngineeringView.CursorMonotone | components/telemetry/deep-engineering-view.tsx:136 | moving the scrubber right never moves the index left |
| EngineeringView.SectorWindowBounds | components/telemetry/deep-engineering-view.tsx:140-141 | the sector number is 0, 1 or 2; sectorStart <= index < sectorStart + len/3; so `sectorEnd` is the index |
| EngineeringView.SliceIndex | components/telemetry/deep-engineering-view.tsx:143 | `slice` turns an argument in [0, len] into its truncation, and any argument into an index in [0, len] |
| EngineeringView.Slice | components/telemetry/deep-engineering-view.tsx:143 | `slice(start, end)` has length end - start for converted start < end, 0 otherwise, and holds the elements from start on |
| EngineeringView.SumAppend | components/telemetry/deep-engineering-view.tsx:144 | the delta sum of a concatenation is the sum of the parts' sums |
| EngineeringView.TimeLostWindow | components/telemetry/deep-engineering-view.tsx:136-144 | time lost sums the deltas of samples trunc(sectorStart) .. index - 1; there are at most ceil(len/3) of them, every sample after the first lies in the cursor's sector, and the sum is 0 when trunc(sectorStart) is the index |
| EngineeringView.TimeLostAtStart | components/telemetry/deep-engineering-view.tsx:136-144 | at scrubber 0 the time lost is 0 |
| EngineeringView.TimeLostBounded | components/telemetry/deep-engineering-view.tsx:142-144 | for samples within the ranges, time lost lies between n·(-0.925) and n·0.95 for a window of n samples |
| EngineeringView.SectorWindowStraddles | components/telemetry/deep-engineering-view.tsx:140-143 | for 82 samples index 28 is in sector 1 and index 27 in sector 0, yet the window for 28 starts at 27 |
| EngineeringView.EmptyWindowAtWholeStart | components/telemetry/deep-engineering-view.tsx:140-143 | the summed window is empty exactly when the cursor's sector start is a whole number equal to the cursor |
| EngineeringView.EmptyWindowOnlyAtZero | components/telemetry/deep-engineering-view.tsx:140-143 | with 82 samples the window is non-empty at every index from 1 to 81 |
| EngineeringView.CarPosition | components/telemetry/deep-engineering-view.tsx:58-64 | `getCarPosition`; no contract of its own: CarPositionInView, CarPositionLoops and MapCarInView give its meaning |
| EngineeringView.SectorStart | components/telemetry/deep-engineering-view.tsx:140 | `sectorStart`; no contract of its own: SectorWindowBounds and SectorWindowStraddles give its meaning |
| EngineeringView.SectorNumber | components/telemetry/deep-engineering-view.tsx:140 | `Math.floor(currentDataIndex / (length / 3))`; no contract of its own: SectorWindowBounds, SameSector and SectorWindowStraddles give its meaning |
| EngineeringView.SumDeltas | components/telemetry/deep-engineering-view.tsx:144 | the `reduce` sum of the deltas; no contract of its own: SumAppend, SumBounds and TimeLostWindow give its meaning |
| EngineeringView.SumBounds | components/telemetry/deep-engineering-view.tsx:144 | a sum of n deltas each in [lo, hi] lies in [n·lo, n·hi] |
| EngineeringView.SameSector | components/telemetry/deep-engineering-view.tsx:140 | an index between the cursor's sector start and the next sector start lies in the cursor's sector |
| EngineeringView.SectorEnd | components/telemetry/deep-engineering-view.tsx:141 | `sectorEnd`; no contract of its own: SectorWindowBounds proves it is always the cursor |
| EngineeringView.TimeLost | components/telemetry/deep-engineering-view.tsx:142-144 | `timeLost`; no contract of its own: TimeLostWindow, TimeLostAtStart and TimeLostBounded give its meaning |
| TelemetryApi.BaseUrlTrimsOneSlash | lib/api/telemetry.ts:10 | one final slash is removed when present and nothing otherwise; the base URL is the configured value, or it less one final slash, or the default; it falls back exactly for `""` and `"/"` |
| TelemetryApi.BaseUrlKeepsSecondSlash | lib/api/telemetry.ts:10 | any value ending in `//`, including `//` itself, keeps one slash |
| TelemetryApi.BaseUrlDefaults | lib/api/telemetry.ts:10-11 | unset, `""` and `"/"` give `http://localhost:8000`, and the unset API base is `http://localhost:8000/api/v1/telemetry` |
| TelemetryApi.ApiBase | lib/api/telemetry.ts:11 | the API base is the base URL followed by `/api/v1/telemetry` |
| TelemetryApi.Endpoint | lib/api/telemetry.ts:63 | every endpoint URL starts with the API base and a slash |
| TelemetryApi.RouteRoundTrip | lib/api/telemetry.ts:63-114 | for ids without `/`, every endpoint URL parses back to the route that built it, lap number included |
| TelemetryApi.LapsRoute | lib/api/telemetry.ts:73 | the session-laps URL `API_BASE/sessions/{id}/laps` parses back to its id |
| TelemetryApi.DetailsRoute | lib/api/telemetry.ts:82-84 | the lap-detail URL `API_BASE/sessions/{id}/laps/{n}/details` parses back to its id and lap number |
| TelemetryApi.DetailsSplit | lib/api/telemetry.ts:82-84 | the lap-detail path splits into the segments `"", sessions, id, laps, n, details` |
| TelemetryApi.LapsSplit | lib/api/telemetry.ts:73 | the session-laps path splits into the segments `"", sessions, id, laps` |
| TelemetryApi.IdsEscape | lib/api/telemetry.ts:73 | ids are inserted unencoded, so the laps URL of the id `a/laps/7` is not recognised as any route |
| TelemetryApi.StorageName | lib/api/telemetry.ts:90 | the storage object name ends in the file name |
| TelemetryApi.StorageNameParts | lib/api/telemetry.ts:90 | the part of the storage name before the first `_` reads back as the upload time |
| TelemetryApi.ApiErrorIffNotOk | lib/api/telemetry.ts:34-56 | an `ApiError` is thrown exactly for statuses outside 200..299, and it carries the status |
| TelemetryApi.OkYieldsBody | lib/api/telemetry.ts:34-56 | an ok response with a JSON body never fails and yields that body |
| TelemetryApi.OkUnparseable | lib/api/telemetry.ts:55 | an ok response whose body does not parse fails with the parser's error, not an `ApiError` |
| TelemetryApi.PayloadTooLarge | lib/api/telemetry.ts:44-47 | status 413 gives the fixed size-limit message, status 413 and no detail, whatever the body |
| TelemetryApi.ServerDetail | lib/api/telemetry.ts:49-53 | another failure status keeps the body's detail, which becomes the message when non-empty, `Error de servidor: {status}` otherwise |
| TelemetryApi.GenericMessage | lib/api/telemetry.ts:36-53 | with no usable detail (no field, an empty one, or an unparseable body) the message is `Error de servidor: {status}`, the status reads back from it, and an unparseable body leaves detail unset |
| TelemetryApi.FetchSessions | lib/api/telemetry.ts:113-117 | `fetchSessions` succeeds exactly when its request does, with the `sessions` field, and otherwise fails with the request's error |
| TelemetryApi.StorageFailureStops | lib/api/telemetry.ts:89-110 | a failed storage upload throws `Error uploading to storage: …` whatever the server would say; a successful one yields the classified process-from-storage response |
| TelemetryApi.BaseUrl | lib/api/telemetry.ts:10 | `BASE_URL`; no contract of its own: BaseUrlTrimsOneSlash, BaseUrlKeepsSecondSlash and BaseUrlDefaults give its meaning |
| TelemetryApi.DropTrailingSlash | lib/api/telemetry.ts:10 | `replace(/\/$/, "")`; no contract of its own: BaseUrlTrimsOneSlash and BaseUrlKeepsSecondSlash give its meaning |
| TelemetryApi.DetailOr | lib/api/telemetry.ts:50 | `detail` when it is a non-empty string, else the fallback, as the logical or does; no contract of its own: ServerDetail and GenericMessage give its meaning |
| TelemetryApi.Request | lib/api/telemetry.ts:59-86 | `uploadFile`, `fetchSession` and `fetchLapDetail`: the server's response to the route's endpoint, classified; no contract of its own: RouteRoundTrip for the URL, and the HandleResponse lemmas for the result |
| TelemetryApi.HandleResponse | lib/api/telemetry.ts:34-56 | `handleResponse`; no contract of its own: ApiErrorIffNotOk, OkYieldsBody, OkUnparseable, PayloadTooLarge, ServerDetail and GenericMessage give its meaning |
| TelemetryApi.UploadViaStorage | lib/api/telemetry.ts:89-110 | `uploadFileViaStorage`; no contract of its own: StorageFailureStops and StorageName give its meaning |
| TelemetryHook.ErrorMessage | hooks/use-telemetry.ts:18 | an `Error`'s message is used, and the operation's default message for anything else |
| TelemetryHook.Pending | hooks/use-telemetry.ts:11-12 | while a request runs the hook is loading with no error, its session kept |
| TelemetryHook.LoadSession | hooks/use-telemetry.ts:10-40 | `uploadFile`/`fetchSession`: on success the session is replaced and returned with no error; on failure null is returned, the session kept and the message recorded; loading ends either way |
| TelemetryHook.UploadFile | hooks/use-telemetry.ts:10-24 | `uploadFile`; no contract of its own: LoadSession with the default "Upload failed", and HookShowsResponseError |
| TelemetryHook.FetchSession | hooks/use-telemetry.ts:26-40 | `fetchSession`; no contract of its own: LoadSession with the default "Failed to fetch session" |
| TelemetryHook.FetchLapDetail | hooks/use-telemetry.ts:42-57 | `fetchLapDetail` never touches the session, returns the lap on success and records the message on failure; loading ends either way |
| TelemetryHook.ClearError | hooks/use-telemetry.ts:59-61 | `clearError` clears the error and changes nothing else |
| TelemetryHook.ClearSession | hooks/use-telemetry.ts:63-65 | `clearSession` clears the session and changes nothing else |
| TelemetryHook.ClearIdempotent | hooks/use-telemetry.ts:59-65 | clearing twice is clearing once, and the two clears commute |
| TelemetryHook.RequestForgetsError | hooks/use-telemetry.ts:11-12 | a request's end state does not depend on the error or loading flag before it |
| TelemetryHook.Apply | hooks/use-telemetry.ts:10-65 | each operation leaves the session and error its effect writes, keeps the others, and ends loading if it is a request |
| TelemetryHook.RunState | hooks/use-telemetry.ts:6-65 | after a sequence of operations the session and error are the ones written last, and the hook is loading only if it was and no request ran |
| TelemetryHook.InitialRun | hooks/use-telemetry.ts:6-8 | from the initial state the hook is never left loading, and any session it shows was loaded by some operation |
| TelemetryHook.LastSessionWritten | hooks/use-telemetry.ts:10-65 | the session shown is the starting one or one some operation wrote |
| TelemetryHook.HookShowsResponseError | hooks/use-telemetry.ts:17-20 | after an upload the hook shows an error exactly for non-ok or unparseable responses: the 413 message, the detail or `Error de servidor: {status}`, or the parse error |
| TelemetryHook.LapErrorKeepsSession | hooks/use-telemetry.ts:50-53 | a failed lap request without detail keeps the session, returns nothing and shows `Error de servidor: {status}` |

## Left out

- Decimal.IntToString: `String(n)` switches to exponential notation from 10^21 in magnitude; the model writes every integer in plain digits, and the formatters' preconditions keep their inputs below that bound.
- `formatRPM` (`lib/utils/formatters.ts:36-38`) uses `toLocaleString`, whose output depends on the locale.
- IEEE-754 rounding is not modelled. Numbers are exact reals, so a value such as 0.1 + 0.2 is exact, and `toFixed` rounds the exact value.
- `toFixed`'s exponential notation for magnitudes of 10^21 and more is excluded by the formatters' preconditions.
- `Math.sin`, `Math.cos` and `Math.random` are parameters constrained only by their ranges and period; their actual values are not modelled.
- `fetch`, `FormData`, the Supabase storage client, `response.json()` and `Date.now()` are not modelled. A response, a storage result and a time enter as values.
- The JSON body of the process-from-storage request is not modelled, and neither is the upload's form data.
- The debug `console.log` of the base URLs (`lib/api/telemetry.ts:13-17`) is left out.
- A `detail` field that is not a string is not modelled: the body's detail is an optional string.
- Concurrency in the hook is left out. Overlapping requests, where the first to finish clears `loading` while another is pending, and stale responses are not modelled: each operation completes before the next.
- React rendering, the charts, the SVG track, the `timeLost.toFixed(3)` display (`components/telemetry/deep-engineering-view.tsx:272-273`) and the other views are left out.
- `SessionListItem` is not part of this model; `fetchSessions` is generic in its element type.
- The sector functions require at least one sample; the view never has an empty trace.
- Lap numbers are integers in the model; a fractional `lapNumber` would print with a point.
- EngineeringView.CarPositionLoops: periodicity of the parameters is assumed exactly, whereas the engine's `Math.sin` is only approximately periodic.
- MockTrace.GenerateTelemetryData: the ranges are proved for draws in [0, 1), which is what `Math.random` promises.

## Findings

| source | as written | input that shows it | evidently intended | confidence | as-written member | corrected member |
|---|---|---|---|---|---|---|
| lib/utils/formatters.ts:3-6 | the minutes are taken before the seconds are rounded to milliseconds, so a remainder of 59.9995 s or more prints as `60.000` | 119.9996 s prints `1:60.000` (Formatters.RolloverExample, Formatters.LapTimeRollover) | round the whole time first and carry into the minutes: `2:00.000` (Formatters.CarriedExample) | not executed | Formatters.RolloverExample | Formatters.LapTimeCarriedAccuracy |

=== FILE: decimal.dfy ===
/** Decimal text for numbers: the integer-to-string conversion JavaScript
    applies in template literals, `Number.prototype.toFixed` on exact reals,
    and parsers that invert both. */
module Decimal {
  import opened Wrappers
  import opened Numeric
  import opened Strings

  predicate IsDigit(c: char) {
    '0' <= c <= '9'
  }

  predicate AllDigits(s: string) {
    forall i :: 0 <= i < |s| ==> IsDigit(s[i])
  }

  /** A non-empty run of decimal digits. */
  predicate IsNumeral(s: string) {
    |s| >= 1 && AllDigits(s)
  }

  /** A numeral without superfluous leading zeros, as `String(n)` writes it. */
  predicate IsCanonical(s: string) {
    IsNumeral(s) && (s[0] == '0' ==> |s| == 1)
  }

  function DigitChar(d: nat): (c: char)
    requires d < 10
    ensures IsDigit(c)
  {
    ('0' as int + d) as char
  }

  function DigitValue(c: char): (d: nat)
    requires IsDigit(c)
    ensures d < 10 && DigitChar(d) == c
  {
    c as int - '0' as int
  }

  /** The decimal numeral of `n` (`String(n)` for a non-negative integer). */
  function NatToString(n: nat): (s: string)
    ensures IsCanonical(s)
  {
    if n < 10 then [DigitChar(n)]
    else
      var s := NatToString(n / 10) + [DigitChar(n % 10)];
      assert s[0] == NatToString(n / 10)[0];
      s
  }

  /** The value of a digit string, leading zeros allowed (0 for the empty string). */
  function NumeralValue(s: string): nat
    requires AllDigits(s)
  {
    if |s| == 0 then 0
    else
      assert AllDigits(s[..|s| - 1]);
      NumeralValue(s[..|s| - 1]) * 10 + DigitValue(s[|s| - 1])
  }

  /** Reading back the numeral of `n` gives `n`. */
  lemma {:induction false} NumeralOfNat(n: nat)
    ensures NumeralValue(NatToString(n)) == n
  {
    if n >= 10 {
      NumeralOfNat(n / 10);
      var s := NatToString(n);
      assert s[..|s| - 1] == NatToString(n / 10);
    }
  }

  /** A numeral whose first digit is not `0` has a positive value. */
  lemma {:induction false} LeadingDigitPositive(s: string)
    requires IsNumeral(s) && s[0] != '0'
    ensures NumeralValue(s) >= 1
  {
    if |s| > 1 {
      LeadingDigitPositive(s[..|s| - 1]);
    }
  }

  /** Every canonical numeral is the numeral of its value: `NatToString` is onto them. */
  lemma {:induction false} NatOfNumeral(s: string)
    requires IsCanonical(s)
    ensures NatToString(NumeralValue(s)) == s
  {
    var p := s[..|s| - 1];
    if |s| > 1 {
      assert IsCanonical(p);
      LeadingDigitPositive(p);
      NatOfNumeral(p);
      var n := NumeralValue(s);
      assert n / 10 == NumeralValue(p) && n % 10 == DigitValue(s[|s| - 1]);
      assert s == p + [s[|s| - 1]];
    }
  }

  /** Zero padding on the left does not change a numeral's value. */
  lemma {:induction false} ZeroPadded(k: nat, s: string)
    requires AllDigits(s)
    ensures AllDigits(Repeat('0', k) + s)
    ensures NumeralValue(Repeat('0', k) + s) == NumeralValue(s)
  {
    var z := Repeat('0', k);
    assert AllDigits(z + s);
    if |s| == 0 {
      ZerosValue(k);
      assert z + s == z;
    } else {
      var s' := s[..|s| - 1];
      ZeroPadded(k, s');
      assert (z + s)[..|z + s| - 1] == z + s';
    }
  }

  /** A run of zeros is worth nothing. */
  lemma {:induction false} ZerosValue(k: nat)
    ensures AllDigits(Repeat('0', k))
    ensures NumeralValue(Repeat('0', k)) == 0
  {
    var z := Repeat('0', k);
    if k > 0 {
      ZerosValue(k - 1);
      assert z[..k - 1] == Repeat('0', k - 1);
    }
  }

  /** Numerals of `n` have at most `k` digits when `n < 10^k`. */
  lemma {:induction false} NumeralLength(n: nat, k: nat)
    requires k >= 1 && n < Pow10(k)
    ensures |NatToString(n)| <= k
  {
    if n >= 10 {
      NumeralLength(n / 10, k - 1);
    }
  }

  /** `String(n)` for an integer: an optional `-`, then the numeral in plain digits. */
  function IntToString(n: int): (s: string)
    ensures n >= 0 ==> IsCanonical(s)
    ensures n < 0 ==> |s| >= 2 && s[0] == '-' && IsCanonical(s[1..])
  {
    if n < 0 then
      var s := "-" + NatToString(-n);
      assert s[1..] == NatToString(-n);
      s
    else NatToString(n)
  }

  /** Reads an optionally negative decimal integer. */
  function ParseInt(s: string): Option<int> {
    if |s| >= 2 && s[0] == '-' && IsNumeral(s[1..]) then Some(-(NumeralValue(s[1..]) as int))
    else if IsNumeral(s) then Some(NumeralValue(s))
    else None
  }

  /** `ParseInt` inverts `IntToString`. */
  lemma {:induction false} IntRoundTrip(n: int)
    ensures ParseInt(IntToString(n)) == Some(n)
  {
    if n < 0 {
      NumeralOfNat(-n);
      ParseMinusNumeral(NatToString(-n));
      assert IntToString(n) == "-" + NatToString(-n);
    } else {
      NumeralOfNat(n);
      ParseNumeral(NatToString(n));
    }
  }

  lemma ParseNumeral(s: string)
    requires IsNumeral(s)
    ensures ParseInt(s) == Some(NumeralValue(s))
  {
    assert IsDigit(s[0]);
  }

  lemma ParseMinusNumeral(s: string)
    requires IsNumeral(s)
    ensures ParseInt("-" + s) == Some(-(NumeralValue(s) as int))
  {
    assert ("-" + s)[1..] == s;
  }

  /** The integer text of `String(n)` never contains characters other than `-` and digits. */
  lemma {:induction false} IntTextCharacters(n: int, c: char)
    requires c != '-' && !IsDigit(c)
    ensures c !in IntToString(n)
  {
    var s := IntToString(n);
    if n < 0 {
      assert forall i :: 1 <= i < |s| ==> s[i] == s[1..][i - 1];
    }
  }

  /** Magnitudes from 10^21 on make `toFixed` switch to exponential notation. */
  const PlainLimit: real := 1_000_000_000_000_000_000_000.0

  /** The integer `n` of `toFixed(f)` for x >= 0: the nearest integer to x * 10^f, the larger on a tie. */
  function FixedUnits(x: real, f: nat): nat
    requires x >= 0.0
  {
    Round(Scale(x, f))
  }

  /** The text of `n / 10^f` with exactly `f` fraction digits: the numeral of `n`,
      left-padded with zeros to at least f+1 digits, with a point before the last `f`. */
  function FixedDigits(n: nat, f: nat): (s: string)
    ensures FixedShape(s, f)
    ensures CanonicalWhole(s, f)
  {
    var m := NatToString(n);
    if f == 0 then m
    else
      var padded := PadStart(m, f + 1, '0');
      PaddedWholePart(m, f);
      InsertPoint(padded, f)
  }

  /** The digits before the point have no superfluous leading zero, as `toFixed` writes them. */
  predicate CanonicalWhole(s: string, f: nat)
    requires FixedShape(s, f)
  {
    if f == 0 then IsCanonical(s) else IsCanonical(s[..|s| - f - 1])
  }

  /** Padding a canonical numeral to f+1 digits leaves a canonical part before the last `f`. */
  lemma PaddedWholePart(m: string, f: nat)
    requires IsCanonical(m) && f >= 1
    ensures var padded := PadStart(m, f + 1, '0');
      |padded| >= f + 1 && AllDigits(padded) && IsCanonical(padded[..|padded| - f])
  {
    var padded := PadStart(m, f + 1, '0');
    if |m| >= f + 1 {
      assert padded == m;
      assert padded[..|padded| - f][0] == m[0];
    } else {
      assert padded[0] == '0';
      assert padded[..|padded| - f] == [padded[0]];
    }
  }

  /** `digits` with a decimal point before its last `f` characters. */
  function InsertPoint(digits: string, f: nat): (s: string)
    requires f >= 1 && |digits| >= f + 1 && AllDigits(digits)
    ensures |s| == |digits| + 1
    ensures s[..|s| - f - 1] == digits[..|digits| - f]
    ensures s[..|s| - f - 1] + s[|s| - f..] == digits
    ensures FixedShape(s, f)
  {
    var k := |digits|;
    var s := digits[..k - f] + "." + digits[k - f..];
    assert s[..|s| - f - 1] == digits[..k - f];
    assert s[|s| - f..] == digits[k - f..];
    assert digits[..k - f] + digits[k - f..] == digits;
    s
  }

  /** The shape `toFixed(f)` gives a non-negative number: digits, and for f >= 1 a point
      followed by exactly `f` digits. */
  predicate FixedShape(s: string, f: nat) {
    if f == 0 then IsNumeral(s)
    else
      |s| >= f + 2 && s[|s| - f - 1] == '.'
      && IsNumeral(s[..|s| - f - 1]) && AllDigits(s[|s| - f..])
  }

  /** `x.toFixed(f)` for |x| < 10^21, following section 21.1.3.3 of ECMA-262 on exact reals. */
  function ToFixed(x: real, f: nat): (s: string)
    requires -PlainLimit < x < PlainLimit
    ensures x >= 0.0 ==> FixedShape(s, f) && CanonicalWhole(s, f)
    ensures x < 0.0 ==> |s| >= 1 && s[0] == '-' && FixedShape(s[1..], f) && CanonicalWhole(s[1..], f)
  {
    if x < 0.0 then
      var s := "-" + FixedDigits(FixedUnits(-x, f), f);
      assert s[1..] == FixedDigits(FixedUnits(-x, f), f);
      s
    else FixedDigits(FixedUnits(x, f), f)
  }

  /** The number `Number(x.toFixed(f))` denotes: x rounded to `f` decimals, half away from zero. */
  function FixedValue(x: real, f: nat): real {
    if x < 0.0 then -Unscale(FixedUnits(-x, f) as real, f)
    else Unscale(FixedUnits(x, f) as real, f)
  }

  /** Reads unsigned text of the `FixedShape` form. */
  function ParseUnsignedFixed(s: string, f: nat): Option<real> {
    if !FixedShape(s, f) then None
    else if f == 0 then Some(NumeralValue(s) as real)
    else
      var digits := s[..|s| - f - 1] + s[|s| - f..];
      assert AllDigits(digits);
      Some(Unscale(NumeralValue(digits) as real, f))
  }

  /** Reads the text `toFixed(f)` produces: an optional `-`, then the unsigned form. */
  function ParseFixed(s: string, f: nat): Option<real> {
    if |s| >= 1 && s[0] == '-' then
      match ParseUnsignedFixed(s[1..], f)
      case Some(v) => Some(-v)
      case None => None
    else ParseUnsignedFixed(s, f)
  }

  /** Left padding to f+1 digits keeps the value of a numeral. */
  lemma {:induction false} PaddedValue(m: string, f: nat)
    requires IsNumeral(m)
    ensures AllDigits(PadStart(m, f + 1, '0'))
    ensures NumeralValue(PadStart(m, f + 1, '0')) == NumeralValue(m)
  {
    if |m| < f + 1 {
      assert PadStart(m, f + 1, '0') == Repeat('0', f + 1 - |m|) + m;
      ZeroPadded(f + 1 - |m|, m);
    }
  }

  /** The padded digits of `FixedDigits` still read as `n`. */
  lemma {:induction false} FixedDigitsValue(n: nat, f: nat)
    ensures ParseUnsignedFixed(FixedDigits(n, f), f) == Some(Unscale(n as real, f))
  {
    NumeralOfNat(n);
    if f > 0 {
      FractionDigitsValue(n, f);
    }
  }

  lemma {:induction false} FractionDigitsValue(n: nat, f: nat)
    requires f > 0
    ensures ParseUnsignedFixed(FixedDigits(n, f), f) == Some(Unscale(n as real, f))
  {
    var padded := PadStart(NatToString(n), f + 1, '0');
    NumeralOfNat(n);
    PaddedValue(NatToString(n), f);
    PointedValue(padded, f, n);
  }

  /** Digits with a point inserted read as their value scaled down by 10^f. */
  lemma {:induction false} PointedValue(digits: string, f: nat, n: nat)
    requires f > 0 && AllDigits(digits) && |digits| >= f + 1 && NumeralValue(digits) == n
    ensures ParseUnsignedFixed(InsertPoint(digits, f), f) == Some(Unscale(n as real, f))
  {
    ReadFraction(InsertPoint(digits, f), f);
  }

  lemma {:induction false} ReadFraction(s: string, f: nat)
    requires f > 0 && FixedShape(s, f)
    ensures AllDigits(s[..|s| - f - 1] + s[|s| - f..])
    ensures ParseUnsignedFixed(s, f) == Some(Unscale(NumeralValue(s[..|s| - f - 1] + s[|s| - f..]) as real, f))
  {
  }

  lemma {:induction false} ParseNegative(s: string, f: nat, v: real)
    requires |s| >= 1 && s[0] == '-' && ParseUnsignedFixed(s[1..], f) == Some(v)
    ensures ParseFixed(s, f) == Some(-v)
  {
  }

  lemma {:induction false} StartsWithDigit(s: string, f: nat)
    requires FixedShape(s, f)
    ensures |s| >= 1 && IsDigit(s[0])
  {
    if f > 0 {
      assert s[..|s| - f - 1][0] == s[0];
    }
  }

  /** Parsing the text of `x.toFixed(f)` yields exactly the rounded value. */
  lemma {:induction false} FixedRoundTrip(x: real, f: nat)
    requires -PlainLimit < x < PlainLimit
    ensures ParseFixed(ToFixed(x, f), f) == Some(FixedValue(x, f))
  {
    if x < 0.0 {
      NegativeRoundTrip(x, f);
    } else {
      NonNegativeRoundTrip(x, f);
    }
  }

  lemma NegativeRoundTrip(x: real, f: nat)
    requires -PlainLimit < x < 0.0
    ensures ParseFixed(ToFixed(x, f), f) == Some(FixedValue(x, f))
  {
    var n := FixedUnits(-x, f);
    var v := Unscale(n as real, f);
    var digits := FixedDigits(n, f);
    FixedDigitsValue(n, f);
    NegativeText(x, f);
    NegativeReading(ToFixed(x, f), digits, f, v, FixedValue(x, f));
  }

  /** Text made of a minus sign and unsigned text reads as the negated reading. */
  lemma NegativeReading(t: string, digits: string, f: nat, v: real, w: real)
    requires t == "-" + digits && ParseUnsignedFixed(digits, f) == Some(v) && w == -v
    ensures ParseFixed(t, f) == Some(w)
  {
    SignedText(digits, f, v);
  }

  /** Below zero, `toFixed` is a minus sign before the digits of the magnitude's units. */
  lemma NegativeText(x: real, f: nat)
    requires -PlainLimit < x < 0.0
    ensures ToFixed(x, f) == "-" + FixedDigits(FixedUnits(-x, f), f)
    ensures FixedValue(x, f) == -Unscale(FixedUnits(-x, f) as real, f)
  {
  }

  lemma NonNegativeRoundTrip(x: real, f: nat)
    requires 0.0 <= x < PlainLimit
    ensures ParseFixed(ToFixed(x, f), f) == Some(FixedValue(x, f))
  {
    var n := FixedUnits(x, f);
    FixedDigitsValue(n, f);
    UnsignedText(FixedDigits(n, f), f, Unscale(n as real, f));
  }

  /** A minus sign in front of unsigned text negates what it reads as. */
  lemma SignedText(digits: string, f: nat, v: real)
    requires ParseUnsignedFixed(digits, f) == Some(v)
    ensures ParseFixed("-" + digits, f) == Some(-v)
  {
    var s := "-" + digits;
    assert s[1..] == digits;
    ParseNegative(s, f, v);
  }

  /** Unsigned text reads the same with or without the sign check. */
  lemma UnsignedText(s: string, f: nat, v: real)
    requires ParseUnsignedFixed(s, f) == Some(v)
    ensures ParseFixed(s, f) == Some(v)
  {
    StartsWithDigit(s, f);
  }

  /** The rounded value is within half a unit in the last place of `x`. */
  lemma {:induction false} FixedError(x: real, f: nat)
    ensures -Unscale(0.5, f) <= FixedValue(x, f) - x <= Unscale(0.5, f)
  {
    var y := if x < 0.0 then -x else x;
    var n := FixedUnits(y, f) as real;
    // n - 1/2 <= y * 10^f < n + 1/2, divided through by 10^f
    UnscaleMonotone(n - 0.5, Scale(y, f), f);
    UnscaleMonotone(Scale(y, f), n + 0.5, f);
    UnscaleScale(y, f);
    UnscaleAdd(n, -0.5, f);
    UnscaleAdd(n, 0.5, f);
    UnscaleNegate(0.5, f);
  }

  /** Zeros added in front of `toFixed` text (as `padStart` does) do not change what it reads as. */
  lemma {:induction false} ZeroPaddedFixed(k: nat, s: string, f: nat)
    requires FixedShape(s, f)
    ensures FixedShape(Repeat('0', k) + s, f)
    ensures ParseUnsignedFixed(Repeat('0', k) + s, f) == ParseUnsignedFixed(s, f)
  {
    var z := Repeat('0', k);
    var t := z + s;
    if f == 0 {
      ZeroPadded(k, s);
    } else {
      assert t[..|t| - f - 1] == z + s[..|s| - f - 1];
      assert t[|t| - f..] == s[|s| - f..];
      assert AllDigits(z + s[..|s| - f - 1]) by { ZeroPadded(k, s[..|s| - f - 1]); }
      assert FixedShape(t, f);
      ReadFraction(s, f);
      ReadFraction(t, f);
      var ds := s[..|s| - f - 1] + s[|s| - f..];
      assert t[..|t| - f - 1] + t[|t| - f..] == z + ds;
      ZeroPadded(k, ds);
    }
  }

  /** Text of the `FixedShape` form holds only digits and the point. */
  lemma {:induction false} FixedShapeCharacters(s: string, f: nat, c: char)
    requires FixedShape(s, f) && c != '.' && !IsDigit(c)
    ensures c !in s
  {
    if f > 0 {
      var w, p := s[..|s| - f - 1], s[|s| - f..];
      forall i | 0 <= i < |s|
        ensures s[i] != c
      {
        if i < |s| - f - 1 {
          assert s[i] == w[i];
        } else if i > |s| - f - 1 {
          assert s[i] == p[i - (|s| - f)];
        }
      }
    }
  }

  /** The text of `toFixed` holds only digits, the point and a leading minus sign. */
  lemma {:induction false} FixedTextCharacters(x: real, f: nat, c: char)
    requires -PlainLimit < x < PlainLimit
    requires c != '.' && c != '-' && !IsDigit(c)
    ensures c !in ToFixed(x, f)
  {
    var s := ToFixed(x, f);
    if x < 0.0 {
      FixedShapeCharacters(s[1..], f, c);
      assert s == [s[0]] + s[1..];
    } else {
      FixedShapeCharacters(s, f, c);
    }
  }
}

=== FILE: engineering_view.dfy ===
/** The cursor arithmetic of the deep-engineering view
    (`components/telemetry/deep-engineering-view.tsx`): the figure-8 car position on the
    track map, the scrubber-to-sample index, and the "time lost in sector" sum. */
module EngineeringView {
  import opened Numeric
  import opened MockSamples

  // ---------------------------------------------------------------- the car on the track map

  datatype Point = Point(x: real, y: real)

  /** `getCarPosition`: a figure-8 parametrised by lap progress `p`. */
  function CarPosition(trig: Trig, p: real): Point {
    var angle := p * PI * 2.0;
    Point(200.0 + trig.sin(angle) * 100.0 + trig.sin(angle * 2.0) * 30.0,
          150.0 + trig.cos(angle) * 80.0 - trig.cos(angle * 2.0) * 40.0)
  }

  /** The car is drawn inside the 400 x 300 view box, at least 30 units from every edge. */
  lemma CarPositionInView(trig: Trig, p: real)
    requires UnitRange(trig)
    ensures var pos := CarPosition(trig, p);
      70.0 <= pos.x <= 330.0 && 30.0 <= pos.y <= 270.0
    ensures var pos := CarPosition(trig, p);
      0.0 <= pos.x <= 400.0 && 0.0 <= pos.y <= 300.0
  {
    var angle := p * PI * 2.0;
    assert -1.0 <= trig.sin(angle) <= 1.0 && -1.0 <= trig.cos(angle) <= 1.0;
    assert -1.0 <= trig.sin(angle * 2.0) <= 1.0 && -1.0 <= trig.cos(angle * 2.0) <= 1.0;
  }

  /** The path closes: one more lap of progress puts the car back where it was. */
  lemma CarPositionLoops(trig: Trig, p: real)
    requires Periodic(trig)
    ensures CarPosition(trig, p + 1.0) == CarPosition(trig, p)
  {
    var a := p * PI * 2.0;
    assert (p + 1.0) * PI * 2.0 == a + 2.0 * PI;
    assert (a + 2.0 * PI) * 2.0 == (a * 2.0 + 2.0 * PI) + 2.0 * PI;
    assert trig.sin(a + 2.0 * PI) == trig.sin(a);
    assert trig.cos(a + 2.0 * PI) == trig.cos(a);
    assert trig.sin((a * 2.0 + 2.0 * PI) + 2.0 * PI) == trig.sin(a * 2.0 + 2.0 * PI) == trig.sin(a * 2.0);
    assert trig.cos((a * 2.0 + 2.0 * PI) + 2.0 * PI) == trig.cos(a * 2.0 + 2.0 * PI) == trig.cos(a * 2.0);
  }

  /** The map's progress is the scrubber position over 100. */
  function Progress(scrubber: real): (p: real)
    requires 0.0 <= scrubber <= 100.0
    ensures 0.0 <= p <= 1.0
  {
    scrubber / 100.0
  }

  /** The map is fed `scrubberPosition / 100`; for every scrubber position the car is drawn inside
      the view box, and the two ends of the scrubber show the same point. */
  lemma MapCarInView(trig: Trig, scrubber: real)
    requires UnitRange(trig) && Periodic(trig) && 0.0 <= scrubber <= 100.0
    ensures var pos := CarPosition(trig, Progress(scrubber));
      70.0 <= pos.x <= 330.0 && 30.0 <= pos.y <= 270.0
    ensures CarPosition(trig, Progress(100.0)) == CarPosition(trig, Progress(0.0))
  {
    CarPositionInView(trig, Progress(scrubber));
    CarPositionLoops(trig, 0.0);
    assert Progress(100.0) == 0.0 + 1.0;
  }

  // ---------------------------------------------------------------- cursor and sector window

  lemma ProductBounds(a: real, m: real)
    requires 0.0 <= a <= 1.0 && m >= 0.0
    ensures 0.0 <= a * m <= m
  {
    if m > 0.0 {
      ScaleOrder(m, 0.0, a);
      ScaleOrder(m, a, 1.0);
    }
  }

  /** `Math.floor((scrubberPosition / 100) * (telemetryData.length - 1))`. */
  function CursorIndex(scrubber: real, len: nat): (idx: int)
    requires 0.0 <= scrubber <= 100.0 && len >= 1
    ensures 0 <= idx <= len - 1
    ensures scrubber == 0.0 ==> idx == 0
    ensures scrubber == 100.0 ==> idx == len - 1
  {
    ProductBounds(scrubber / 100.0, (len - 1) as real);
    ((scrubber / 100.0) * (len - 1) as real).Floor
  }

  /** Moving the scrubber right never moves the cursor left. */
  lemma CursorMonotone(s1: real, s2: real, len: nat)
    requires 0.0 <= s1 <= s2 <= 100.0 && len >= 1
    ensures CursorIndex(s1, len) <= CursorIndex(s2, len)
  {
    var m := (len - 1) as real;
    var a, b := s1 / 100.0, s2 / 100.0;
    var x, y := a * m, b * m;
    if len > 1 {
      assert a <= b;
      ScaleOrder(m, a, b);
      assert x == m * a && y == m * b;
    } else {
      assert x == 0.0 == y;
    }
    FloorMonotone(x, y);
  }

  lemma FloorMonotone(x: real, y: real)
    requires x <= y
    ensures x.Floor <= y.Floor
  {
  }

  /** `telemetryData.length / 3`, a real number: 27.33... for 82 samples. */
  function SectorSize(len: nat): real {
    len as real / 3.0
  }

  /** `Math.floor(currentDataIndex / (telemetryData.length / 3))`. */
  function SectorNumber(idx: int, len: nat): int
    requires len >= 1
  {
    (idx as real / SectorSize(len)).Floor
  }

  /** `sectorStart`: the sector number times the real sector size. */
  function SectorStart(idx: int, len: nat): real
    requires len >= 1
  {
    SectorNumber(idx, len) as real * SectorSize(len)
  }

  /** `sectorEnd`: `Math.min(sectorStart + length / 3, currentDataIndex)`. */
  function SectorEnd(idx: int, len: nat): real
    requires len >= 1
  {
    Min(SectorStart(idx, len) + SectorSize(len), idx as real)
  }

  /** The start of the sector containing `idx` lies at or before it, the next sector start after it;
      so the sector end is always the cursor itself, and there are exactly three sectors. */
  lemma {:induction false} SectorWindowBounds(idx: int, len: nat)
    requires len >= 1 && 0 <= idx <= len - 1
    ensures 0 <= SectorNumber(idx, len) <= 2
    ensures 0.0 <= SectorStart(idx, len) <= idx as real < SectorStart(idx, len) + SectorSize(len)
    ensures SectorEnd(idx, len) == idx as real
  {
    var y := SectorSize(len);
    var q := SectorNumber(idx, len);
    var x := idx as real;
    QuotientSign(x, y);
    MultipleBelow(x, y, q as real);
    NextMultipleAbove(x, y, q as real);
    if q >= 3 {
      MultipleBelow(x, y, 3.0);
      assert false;
    }
    assert SectorStart(idx, len) == y * q as real;
    ScaleOrder(y, 0.0, q as real);
  }

  /** The index `Array.prototype.slice` derives from a start or end argument: truncated towards
      zero, counted from the end when negative, and clamped to [0, len]. */
  function SliceIndex(v: real, len: nat): (k: nat)
    ensures k <= len
    ensures 0.0 <= v <= len as real ==> k == Trunc(v)
  {
    var rel := Trunc(v);
    if rel < 0 then (if len + rel < 0 then 0 else len + rel)
    else if rel < len then rel
    else len
  }

  /** `s.slice(start, end)`. */
  function Slice<T>(s: seq<T>, start: real, end: real): (r: seq<T>)
    ensures var k, e := SliceIndex(start, |s|), SliceIndex(end, |s|);
      |r| == (if k < e then e - k else 0) && forall j :: 0 <= j < |r| ==> r[j] == s[k + j]
  {
    var k, e := SliceIndex(start, |s|), SliceIndex(end, |s|);
    if k < e then s[k..e] else []
  }

  /** `reduce((acc, d) => acc + d.delta, 0)`: the deltas summed left to right. */
  function SumDeltas(s: seq<Sample>): real {
    if |s| == 0 then 0.0 else SumDeltas(s[..|s| - 1]) + s[|s| - 1].delta
  }

  /** Summing a concatenation sums the parts. */
  lemma {:induction false} SumAppend(a: seq<Sample>, b: seq<Sample>)
    ensures SumDeltas(a + b) == SumDeltas(a) + SumDeltas(b)
  {
    if |b| > 0 {
      SumAppend(a, b[..|b| - 1]);
      assert (a + b)[..|a + b| - 1] == a + b[..|b| - 1];
    } else {
      assert a + b == a;
    }
  }

  /** A sum of `n` deltas each in [lo, hi] lies in [n * lo, n * hi]. */
  lemma {:induction false} SumBounds(s: seq<Sample>, lo: real, hi: real)
    requires forall j :: 0 <= j < |s| ==> lo <= s[j].delta <= hi
    ensures |s| as real * lo <= SumDeltas(s) <= |s| as real * hi
  {
    if |s| > 0 {
      SumBounds(s[..|s| - 1], lo, hi);
      assert |s| as real * lo == (|s| - 1) as real * lo + lo;
      assert |s| as real * hi == (|s| - 1) as real * hi + hi;
    }
  }

  /** `timeLost` for the trace `data` and the scrubber position. */
  function TimeLost(data: seq<Sample>, scrubber: real): real
    requires 0.0 <= scrubber <= 100.0 && |data| >= 1
  {
    var idx := CursorIndex(scrubber, |data|);
    SumDeltas(Slice(data, SectorStart(idx, |data|), SectorEnd(idx, |data|)))
  }

  /** The samples summed are those from the truncated sector start up to, not including, the cursor:
      at most ceil(len / 3) of them, and none exactly when the truncated start is the cursor. */
  lemma {:induction false} TimeLostWindow(data: seq<Sample>, scrubber: real)
    requires 0.0 <= scrubber <= 100.0 && |data| >= 1
    ensures var idx := CursorIndex(scrubber, |data|);
      var t := Trunc(SectorStart(idx, |data|));
      && 0 <= t <= idx < |data|
      && idx - t <= (|data| + 2) / 3
      && Slice(data, SectorStart(idx, |data|), SectorEnd(idx, |data|)) == data[t..idx]
      && TimeLost(data, scrubber) == SumDeltas(data[t..idx])
      && (forall j :: t < j < idx ==> SectorNumber(j, |data|) == SectorNumber(idx, |data|))
      && (t == idx ==> TimeLost(data, scrubber) == 0.0)
  {
    var len := |data|;
    var idx := CursorIndex(scrubber, len);
    var start := SectorStart(idx, len);
    SectorWindowBounds(idx, len);
    var t := Trunc(start);
    assert idx as real < start + len as real / 3.0;
    assert start < t as real + 1.0;
    assert 3 * (idx - t) < len + 3;
    var w := Slice(data, start, SectorEnd(idx, len));
    assert SliceIndex(start, len) == t;
    assert SliceIndex(SectorEnd(idx, len), len) == idx;
    assert w == data[t..idx];
    forall j | t < j < idx
      ensures SectorNumber(j, len) == SectorNumber(idx, len)
    {
      SameSector(j, idx, len);
    }
  }

  /** An index at or after the start of the cursor's sector and before the next one lies in it. */
  lemma SameSector(j: int, idx: int, len: nat)
    requires len >= 1 && 0 <= idx <= len - 1
    requires SectorStart(idx, len) <= j as real < SectorStart(idx, len) + SectorSize(len)
    ensures SectorNumber(j, len) == SectorNumber(idx, len)
  {
    var y := SectorSize(len);
    var q := SectorNumber(idx, len);
    var v := j as real / y;
    assert y * v == j as real;
    assert SectorStart(idx, len) == y * q as real;
    assert y * (q as real + 1.0) == y * q as real + y;
    if v < q as real {
      ScaleOrder(y, v, q as real);
      assert false;
    }
    if v >= q as real + 1.0 {
      ScaleOrder(y, q as real + 1.0, v);
      assert false;
    }
  }

  /** At the left end of the scrubber nothing has been lost yet. */
  lemma TimeLostAtStart(data: seq<Sample>)
    requires |data| >= 1
    ensures TimeLost(data, 0.0) == 0.0
  {
    TimeLostWindow(data, 0.0);
    assert SectorStart(0, |data|) == 0.0;
  }

  /** Time lost is bounded by the window length times the per-sample delta bounds. */
  lemma TimeLostBounded(data: seq<Sample>, scrubber: real)
    requires 0.0 <= scrubber <= 100.0 && |data| >= 1
    requires forall k :: 0 <= k < |data| ==> InRanges(data[k])
    ensures var idx := CursorIndex(scrubber, |data|);
      var n := (idx - Trunc(SectorStart(idx, |data|))) as real;
      n * -0.925 <= TimeLost(data, scrubber) <= n * 0.95
  {
    TimeLostWindow(data, scrubber);
    var idx := CursorIndex(scrubber, |data|);
    var t := Trunc(SectorStart(idx, |data|));
    SumBounds(data[t..idx], -0.925, 0.95);
  }

  /** The window is empty exactly when the cursor sits on a sector start that is a whole number. */
  lemma EmptyWindowAtWholeStart(idx: int, len: nat)
    requires len >= 1 && 0 <= idx <= len - 1
    ensures Trunc(SectorStart(idx, len)) == idx <==> SectorStart(idx, len) == idx as real
  {
    SectorWindowBounds(idx, len);
  }

  /** On the 82-sample trace the sectors 1 and 2 start at 27.33... and 54.66..., so the window is
      empty only at index 0. */
  lemma {:induction false} EmptyWindowOnlyAtZero(idx: int)
    requires 1 <= idx <= SampleCount - 1
    ensures Trunc(SectorStart(idx, SampleCount)) < idx
  {
    SectorWindowBounds(idx, SampleCount);
    EmptyWindowAtWholeStart(idx, SampleCount);
    var q := SectorNumber(idx, SampleCount);
    assert SectorStart(idx, SampleCount) == q as real * 82.0 / 3.0;
    if q == 1 {
      NotWhole(idx, 82);
    } else if q == 2 {
      NotWhole(idx, 164);
    }
  }

  /** A whole number is not a third of a number that 3 does not divide. */
  lemma NotWhole(k: int, n: int)
    requires n % 3 != 0
    ensures k as real != n as real / 3.0
  {
  }

  /** On the 82-sample trace, the cursor at index 28 lies in sector 1, whose real start is
      27.33...; the truncated slice start 27 pulls in sample 27, which lies in sector 0. */
  lemma SectorWindowStraddles()
    ensures SectorNumber(28, SampleCount) == 1
    ensures SectorNumber(27, SampleCount) == 0
    ensures Trunc(SectorStart(28, SampleCount)) == 27
  {
    assert SectorSize(SampleCount) == 82.0 / 3.0;
    assert 28.0 / (82.0 / 3.0) == 84.0 / 82.0;
    assert 27.0 / (82.0 / 3.0) == 81.0 / 82.0;
  }
}

=== FILE: formatters.dfy ===
/** The display formatters of `lib/utils/formatters.ts`: lap times as `M:SS.mmm`,
    durations as `Hh Mm Ss`, distances in kilometres and rounded speeds.
    Each formatter is paired with a parser for its output, and the lemmas
    show what a reader of the text recovers. */
module Formatters {
  import opened Wrappers
  import opened Numeric
  import opened Decimal
  import opened Strings

  // ---------------------------------------------------------------- lap time

  /** `Math.floor(seconds / 60)`. */
  function LapMinutes(seconds: real): int {
    (seconds / 60.0).Floor
  }

  /** `seconds % 60` (JavaScript remainder: the sign of `seconds`). */
  function LapSeconds(seconds: real): real
    requires -PlainLimit < seconds < PlainLimit
  {
    JsRem(seconds, 60.0)
  }

  /** `secs.toFixed(3).padStart(6, "0")`. */
  function SecondsField(secs: real): string
    requires -PlainLimit < secs < PlainLimit
  {
    PadStart(ToFixed(secs, 3), 6, '0')
  }

  /** `formatLapTime`: minutes, a colon, and the seconds field. */
  function FormatLapTime(seconds: real): string
    requires -PlainLimit < seconds < PlainLimit
  {
    IntToString(LapMinutes(seconds)) + ":" + SecondsField(LapSeconds(seconds))
  }

  /** For a non-negative time the two fields decompose it: whole minutes plus seconds below 60. */
  lemma LapTimeSplit(seconds: real)
    requires 0.0 <= seconds < PlainLimit
    ensures LapMinutes(seconds) >= 0
    ensures 0.0 <= LapSeconds(seconds) < 60.0
    ensures seconds == 60.0 * LapMinutes(seconds) as real + LapSeconds(seconds)
  {
  }

  /** The text shape `SS.mmm`: six characters, digits around a point at index 2. */
  predicate IsSecondsField(t: string) {
    |t| == 6 && t[2] == '.'
    && IsDigit(t[0]) && IsDigit(t[1]) && IsDigit(t[3]) && IsDigit(t[4]) && IsDigit(t[5])
  }

  /** Millisecond counts up to 99999 give at most six characters of `SS.mmm` text. */
  lemma {:induction false} FixedDigitsShort(n: nat)
    requires n < 100000
    ensures |FixedDigits(n, 3)| <= 6
  {
    assert Pow10(5) == 100000 by {
      assert Pow10(1) == 10;
      assert Pow10(2) == 100;
      assert Pow10(3) == 1000;
      assert Pow10(4) == 10000;
    }
    NumeralLength(n, 5);
  }

  /** Padding three-decimal text of at most six characters to six with zeros gives `SS.mmm`. */
  lemma {:induction false} PaddedField(s: string)
    requires FixedShape(s, 3) && |s| <= 6
    ensures IsSecondsField(PadStart(s, 6, '0'))
  {
    var t := PadStart(s, 6, '0');
    var w := s[..|s| - 4];
    var p := s[|s| - 3..];
    assert |p| == 3 && IsDigit(p[0]) && IsDigit(p[1]) && IsDigit(p[2]);
    assert |w| >= 1 && IsDigit(w[0]);
    assert t[6 - |s|..] == s;
    if |s| == 5 {
      assert t[0] == '0';
      assert t[1] == s[0] == w[0];
      assert t[2] == s[1];
      assert t[3] == s[2] == p[0];
      assert t[4] == s[3] == p[1];
      assert t[5] == s[4] == p[2];
    } else {
      assert t == s;
      assert IsDigit(w[1]);
      assert t[0] == w[0] && t[1] == w[1] && t[2] == s[2];
      assert t[3] == p[0] && t[4] == p[1] && t[5] == p[2];
    }
  }

  /** For seconds in [0, 60) the field is always six characters of the form `SS.mmm`. */
  lemma {:induction false} SecondsFieldShape(secs: real)
    requires 0.0 <= secs < 60.0
    ensures IsSecondsField(SecondsField(secs))
  {
    ScaleThousand(secs);
    var n := FixedUnits(secs, 3);
    assert n <= 60000;
    FixedDigitsShort(n);
    assert ToFixed(secs, 3) == FixedDigits(n, 3);
    PaddedField(FixedDigits(n, 3));
  }

  /** Minutes are fixed before the seconds are rounded: a remainder of 59.9995 s or more
      prints as `60.000` next to the unchanged minute count. */
  lemma {:induction false} LapTimeRollover(seconds: real)
    requires 0.0 <= seconds < PlainLimit
    requires LapSeconds(seconds) >= 59.9995
    ensures SecondsField(LapSeconds(seconds)) == "60.000"
    ensures FormatLapTime(seconds) == IntToString(LapMinutes(seconds)) + ":60.000"
  {
    var secs := LapSeconds(seconds);
    ScaleThousand(secs);
    assert FixedUnits(secs, 3) == 60000;
    assert NatToString(6) == "6";
    assert NatToString(60) == "60";
    assert NatToString(600) == "600";
    assert NatToString(6000) == "6000";
    assert NatToString(60000) == "60000";
    assert PadStart("60000", 4, '0') == "60000";
    assert InsertPoint("60000", 3) == "60.000";
  }

  /** 1 min 59.9996 s prints as `1:60.000`. */
  lemma RolloverExample()
    ensures FormatLapTime(119.9996) == "1:60.000"
  {
    var x := 119.9996;
    assert LapSeconds(x) >= 59.9995 by {
      assert LapSeconds(x) == 59.9996;
    }
    LapTimeRollover(x);
    assert LapMinutes(x) == 1;
    OneMinuteText(FormatLapTime(x));
  }

  lemma OneMinuteText(t: string)
    requires t == IntToString(1) + ":60.000"
    ensures t == "1:60.000"
  {
    assert IntToString(1) == "1";
  }

  /** Carried into the minutes, 1 min 59.9996 s prints as `2:00.000`. */
  lemma CarriedExample()
    ensures FormatLapTimeCarried(119.9996) == "2:00.000"
  {
    var x := 119.9996;
    ScaleThousand(x);
    var ms := FixedUnits(x, 3);
    assert ms == 120000;
    assert ms / 60000 == 2 && ms % 60000 == 0;
    assert IntToString(2) == "2";
    assert FixedDigits(0, 3) == "0.000" by {
      assert NatToString(0) == "0";
      assert PadStart("0", 4, '0') == "0000";
      assert InsertPoint("0000", 3) == "0.000";
    }
    assert PadStart("0.000", 6, '0') == "00.000";
    assert FormatLapTimeCarried(x) == "2" + ":" + "00.000";
  }

  /** What a reader takes from a lap time: the minute count and the seconds value. */
  datatype LapReading = LapReading(minutes: int, seconds: real)

  /** Reads `M:SS.mmm` text back. */
  function ParseLapTime(t: string): Option<LapReading> {
    var parts := Split(t, ':');
    if |parts| != 2 then None
    else
      var m :- ParseInt(parts[0]);
      var s :- ParseFixed(parts[1], 3);
      Some(LapReading(m, s))
  }

  /** The seconds field reads as the seconds rounded to milliseconds, zero padding or not. */
  lemma {:induction false} SecondsFieldValue(secs: real)
    requires -PlainLimit < secs < PlainLimit
    ensures ParseFixed(SecondsField(secs), 3) == Some(FixedValue(secs, 3))
    ensures ':' !in SecondsField(secs)
  {
    var s := ToFixed(secs, 3);
    FixedRoundTrip(secs, 3);
    FixedTextCharacters(secs, 3, ':');
    if secs >= 0.0 && |s| < 6 {
      var k := 6 - |s|;
      assert SecondsField(secs) == Repeat('0', k) + s;
      ZeroPaddedFixed(k, s, 3);
      StartsWithDigit(s, 3);
      assert (Repeat('0', k) + s)[0] == '0';
    }
  }

  /** A colon-separated pair reads as its two halves. */
  lemma ParseLapPair(a: string, b: string, m: int, v: real)
    requires ':' !in a && ':' !in b
    requires ParseInt(a) == Some(m) && ParseFixed(b, 3) == Some(v)
    ensures ParseLapTime(a + ":" + b) == Some(LapReading(m, v))
  {
    SplitTwo(a, b, ':');
  }

  /** Lap-time text is unambiguous: it reads back as the minutes and the rounded seconds. */
  lemma {:induction false} LapTimeRoundTrip(seconds: real)
    requires -PlainLimit < seconds < PlainLimit
    ensures ParseLapTime(FormatLapTime(seconds))
         == Some(LapReading(LapMinutes(seconds), FixedValue(LapSeconds(seconds), 3)))
  {
    IntTextCharacters(LapMinutes(seconds), ':');
    SecondsFieldValue(LapSeconds(seconds));
    IntRoundTrip(LapMinutes(seconds));
    ParseLapPair(IntToString(LapMinutes(seconds)), SecondsField(LapSeconds(seconds)),
      LapMinutes(seconds), FixedValue(LapSeconds(seconds), 3));
  }

  /** The time a reader reconstructs from a non-negative lap time is off by at most half a millisecond. */
  lemma {:induction false} LapTimeAccuracy(seconds: real)
    requires 0.0 <= seconds < PlainLimit
    ensures ParseLapTime(FormatLapTime(seconds)).Some?
    ensures var r := ParseLapTime(FormatLapTime(seconds)).value;
      -0.0005 <= 60.0 * r.minutes as real + r.seconds - seconds <= 0.0005
  {
    LapTimeRoundTrip(seconds);
    LapTimeSplit(seconds);
    FixedError(LapSeconds(seconds), 3);
    ScaleThousand(0.5);
  }

  /** Lap time with the rounding carried into the minutes: round the whole time to
      milliseconds first, then split. */
  function FormatLapTimeCarried(seconds: real): string
    requires 0.0 <= seconds < PlainLimit
  {
    var ms := FixedUnits(seconds, 3);
    IntToString(ms / 60000) + ":" + PadStart(FixedDigits(ms % 60000, 3), 6, '0')
  }

  /** The carried seconds field is the field of the remainder below one minute. */
  lemma {:induction false} CarriedField(rest: nat)
    requires rest < 60000
    ensures FixedDigits(rest, 3) == ToFixed(rest as real / 1000.0, 3)
    ensures FixedValue(rest as real / 1000.0, 3) == rest as real / 1000.0
  {
    var secs := rest as real / 1000.0;
    assert FixedUnits(secs, 3) == rest by {
      ScaleThousand(secs);
      assert Scale(secs, 3) == rest as real;
      assert Round(rest as real) == rest;
    }
    assert 0.0 <= secs < 60.0;
    assert ToFixed(secs, 3) == FixedDigits(rest, 3);
    assert FixedValue(secs, 3) == Unscale(rest as real, 3);
    ScaleThousand(rest as real);
  }

  /** With the carry the seconds field always reads below 60, and the time stays within half a millisecond. */
  lemma {:induction false} LapTimeCarriedAccuracy(seconds: real)
    requires 0.0 <= seconds < PlainLimit
    ensures ParseLapTime(FormatLapTimeCarried(seconds)).Some?
    ensures var r := ParseLapTime(FormatLapTimeCarried(seconds)).value;
      && r.minutes >= 0
      && 0.0 <= r.seconds < 60.0
      && -0.0005 <= 60.0 * r.minutes as real + r.seconds - seconds <= 0.0005
  {
    var ms := FixedUnits(seconds, 3);
    var rest := ms % 60000;
    var secs := rest as real / 1000.0;
    CarriedField(rest);
    var a := IntToString(ms / 60000);
    var b := SecondsField(secs);
    assert FormatLapTimeCarried(seconds) == a + ":" + b;
    IntTextCharacters(ms / 60000, ':');
    SecondsFieldValue(secs);
    IntRoundTrip(ms / 60000);
    ParseLapPair(a, b, ms / 60000, secs);
    CarriedTotal(seconds, ms);
  }

  /** Whole minutes plus the remainder give back the rounded milliseconds, within half a millisecond of the time. */
  lemma {:induction false} CarriedTotal(seconds: real, ms: nat)
    requires 0.0 <= seconds < PlainLimit && ms == FixedUnits(seconds, 3)
    ensures -0.0005 <= 60.0 * (ms / 60000) as real + (ms % 60000) as real / 1000.0 - seconds <= 0.0005
  {
    FixedError(seconds, 3);
    ScaleThousand(0.5);
    ScaleThousand(ms as real);
    assert FixedValue(seconds, 3) == ms as real / 1000.0;
    assert ms == 60000 * (ms / 60000) + ms % 60000;
    assert ms as real / 1000.0 == 60.0 * (ms / 60000) as real + (ms % 60000) as real / 1000.0;
  }

  // ---------------------------------------------------------------- duration

  /** `Math.floor(seconds / 3600)`. */
  function DurationHours(seconds: real): int {
    (seconds / 3600.0).Floor
  }

  /** `Math.floor((seconds % 3600) / 60)`. */
  function DurationMinutes(seconds: real): int {
    (JsRem(seconds, 3600.0) / 60.0).Floor
  }

  /** `Math.floor(seconds % 60)`. */
  function DurationSeconds(seconds: real): int {
    JsRem(seconds, 60.0).Floor
  }

  /** `formatDuration`: the hour field only when hours > 0, the minute field when hours or minutes are. */
  function FormatDuration(seconds: real): string
    requires -PlainLimit < seconds < PlainLimit
  {
    var h, m, s := DurationHours(seconds), DurationMinutes(seconds), DurationSeconds(seconds);
    if h > 0 then IntToString(h) + "h " + IntToString(m) + "m " + IntToString(s) + "s"
    else if m > 0 then IntToString(m) + "m " + IntToString(s) + "s"
    else IntToString(s) + "s"
  }

  lemma FloorShift(y: real, k: int)
    ensures (y + k as real).Floor == y.Floor + k
  {
  }

  /** For a non-negative duration the three fields decompose its whole seconds, minutes and seconds below 60. */
  lemma {:induction false} DurationDecomposition(seconds: real)
    requires seconds >= 0.0
    ensures DurationHours(seconds) >= 0
    ensures 0 <= DurationMinutes(seconds) <= 59
    ensures 0 <= DurationSeconds(seconds) <= 59
    ensures 3600 * DurationHours(seconds) + 60 * DurationMinutes(seconds) + DurationSeconds(seconds)
         == seconds.Floor
  {
    var h := DurationHours(seconds);
    var r := JsRem(seconds, 3600.0);
    var m := DurationMinutes(seconds);
    var q := (seconds / 60.0).Floor;
    assert r == seconds - 3600.0 * h as real;
    assert seconds / 60.0 == r / 60.0 + (60 * h) as real;
    FloorShift(r / 60.0, 60 * h);
    assert q == m + 60 * h;
    assert JsRem(seconds, 60.0) == seconds - 60.0 * q as real;
    FloorShift(seconds, -60 * q);
    assert DurationSeconds(seconds) == seconds.Floor - 60 * q;
  }

  /** One `<integer><unit>` field of a duration. */
  function ParseUnitField(token: string, unit: char): Option<int> {
    if |token| >= 1 && token[|token| - 1] == unit then ParseInt(token[..|token| - 1]) else None
  }

  /** Reads `Hh Mm Ss`, `Mm Ss` or `Ss` back into a number of seconds. */
  function ParseDuration(t: string): Option<int> {
    var tokens := Split(t, ' ');
    if |tokens| == 3 then
      var h :- ParseUnitField(tokens[0], 'h');
      var m :- ParseUnitField(tokens[1], 'm');
      var s :- ParseUnitField(tokens[2], 's');
      Some(3600 * h + 60 * m + s)
    else if |tokens| == 2 then
      var m :- ParseUnitField(tokens[0], 'm');
      var s :- ParseUnitField(tokens[1], 's');
      Some(60 * m + s)
    else if |tokens| == 1 then ParseUnitField(tokens[0], 's')
    else None
  }

  /** A field `<n><unit>` holds no space and reads back as `n`. */
  lemma {:induction false} UnitFieldRoundTrip(n: int, unit: char)
    requires unit != ' ' && unit != '-' && !IsDigit(unit)
    ensures ' ' !in IntToString(n) + [unit]
    ensures ParseUnitField(IntToString(n) + [unit], unit) == Some(n)
  {
    var t := IntToString(n) + [unit];
    IntTextCharacters(n, ' ');
    IntRoundTrip(n);
    assert t[..|t| - 1] == IntToString(n);
  }

  /** The duration text as space-separated fields. */
  function DurationTokens(seconds: real): seq<string> {
    FieldTokens(DurationHours(seconds), DurationMinutes(seconds), DurationSeconds(seconds))
  }

  /** The fields printed for `h` hours, `m` minutes and `s` seconds. */
  function FieldTokens(h: int, m: int, s: int): seq<string> {
    if h > 0 then [IntToString(h) + "h", IntToString(m) + "m", IntToString(s) + "s"]
    else if m > 0 then [IntToString(m) + "m", IntToString(s) + "s"]
    else [IntToString(s) + "s"]
  }

  lemma {:induction false} DurationIsTokens(seconds: real)
    requires -PlainLimit < seconds < PlainLimit
    ensures Split(FormatDuration(seconds), ' ') == DurationTokens(seconds)
  {
    var h, m, s := DurationHours(seconds), DurationMinutes(seconds), DurationSeconds(seconds);
    var ht, mt, st := IntToString(h) + "h", IntToString(m) + "m", IntToString(s) + "s";
    UnitFieldRoundTrip(s, 's');
    if h > 0 {
      UnitFieldRoundTrip(h, 'h');
      UnitFieldRoundTrip(m, 'm');
      FieldsThree(IntToString(h), IntToString(m), IntToString(s));
      SplitThree(ht, mt, st, ' ');
    } else if m > 0 {
      UnitFieldRoundTrip(m, 'm');
      FieldsTwo(IntToString(m), IntToString(s));
      SplitTwo(mt, st, ' ');
    } else {
      SplitWhole(st, ' ');
    }
  }

  /** The hours-minutes-seconds text is its three unit fields with a space between neighbours. */
  lemma FieldsThree(a: string, b: string, c: string)
    ensures a + "h " + b + "m " + c + "s" == (a + "h") + [' '] + (b + "m") + [' '] + (c + "s")
  {
    assert a + "h " == (a + "h") + [' '];
    assert b + "m " == (b + "m") + [' '];
  }

  /** The minutes-seconds text is its two unit fields with a space between them. */
  lemma FieldsTwo(b: string, c: string)
    ensures b + "m " + c + "s" == (b + "m") + [' '] + (c + "s")
  {
    assert b + "m " == (b + "m") + [' '];
  }

  /** The output has three fields exactly when hours > 0, two exactly when hours <= 0 < minutes,
      and a single seconds field otherwise. */
  lemma {:induction false} DurationShape(seconds: real)
    requires -PlainLimit < seconds < PlainLimit
    ensures |Split(FormatDuration(seconds), ' ')| == 3 <==> DurationHours(seconds) > 0
    ensures |Split(FormatDuration(seconds), ' ')| == 2
        <==> DurationHours(seconds) <= 0 && DurationMinutes(seconds) > 0
    ensures |Split(FormatDuration(seconds), ' ')| == 1
        <==> DurationHours(seconds) <= 0 && DurationMinutes(seconds) <= 0
  {
    DurationIsTokens(seconds);
  }

  lemma ParseThreeFields(t: string, h: int, m: int, sec: int)
    requires Split(t, ' ') == [IntToString(h) + "h", IntToString(m) + "m", IntToString(sec) + "s"]
    ensures ParseDuration(t) == Some(3600 * h + 60 * m + sec)
  {
    UnitFieldRoundTrip(h, 'h');
    UnitFieldRoundTrip(m, 'm');
    UnitFieldRoundTrip(sec, 's');
    ThreeTokens(t, IntToString(h) + "h", IntToString(m) + "m", IntToString(sec) + "s", h, m, sec);
  }

  /** Three fields that read as `h`, `m` and `sec` read together as a number of seconds. */
  lemma ThreeTokens(t: string, a: string, b: string, c: string, h: int, m: int, sec: int)
    requires Split(t, ' ') == [a, b, c]
    requires ParseUnitField(a, 'h') == Some(h) && ParseUnitField(b, 'm') == Some(m)
    requires ParseUnitField(c, 's') == Some(sec)
    ensures ParseDuration(t) == Some(3600 * h + 60 * m + sec)
  {
  }

  lemma ParseTwoFields(t: string, m: int, sec: int)
    requires Split(t, ' ') == [IntToString(m) + "m", IntToString(sec) + "s"]
    ensures ParseDuration(t) == Some(60 * m + sec)
  {
    UnitFieldRoundTrip(m, 'm');
    UnitFieldRoundTrip(sec, 's');
    TwoTokens(t, IntToString(m) + "m", IntToString(sec) + "s", m, sec);
  }

  /** Two fields that read as `m` and `sec` read together as a number of seconds. */
  lemma TwoTokens(t: string, b: string, c: string, m: int, sec: int)
    requires Split(t, ' ') == [b, c]
    requires ParseUnitField(b, 'm') == Some(m) && ParseUnitField(c, 's') == Some(sec)
    ensures ParseDuration(t) == Some(60 * m + sec)
  {
  }

  lemma ParseOneField(t: string, sec: int)
    requires Split(t, ' ') == [IntToString(sec) + "s"]
    ensures ParseDuration(t) == Some(sec)
  {
    UnitFieldRoundTrip(sec, 's');
  }

  /** A non-negative duration reads back as its whole number of seconds. */
  lemma {:induction false} DurationRoundTrip(seconds: real)
    requires 0.0 <= seconds < PlainLimit
    ensures ParseDuration(FormatDuration(seconds)) == Some(seconds.Floor)
  {
    DurationIsTokens(seconds);
    DurationDecomposition(seconds);
    FieldsRead(FormatDuration(seconds), DurationHours(seconds), DurationMinutes(seconds), DurationSeconds(seconds));
  }

  /** Text whose fields are those printed for non-negative hours and minutes reads back as the
      total number of seconds. */
  lemma FieldsRead(t: string, h: int, m: int, sec: int)
    requires h >= 0 && m >= 0 && Split(t, ' ') == FieldTokens(h, m, sec)
    ensures ParseDuration(t) == Some(3600 * h + 60 * m + sec)
  {
    if h > 0 {
      ParseThreeFields(t, h, m, sec);
    } else if m > 0 {
      ParseTwoFields(t, m, sec);
    } else {
      ParseOneField(t, sec);
    }
  }

  /** One hour prints every lower field, zeros included. */
  lemma OneHour()
    ensures FormatDuration(3600.0) == "1h 0m 0s"
  {
    assert DurationHours(3600.0) == 1;
    assert DurationMinutes(3600.0) == 0;
    assert DurationSeconds(3600.0) == 0;
    assert IntToString(1) == "1" && IntToString(0) == "0";
  }

  // ---------------------------------------------------------------- distance and speed

  /** `formatDistance`: kilometres with one decimal, then ` km`. */
  function FormatDistance(meters: real): string
    requires -PlainLimit * 1000.0 < meters < PlainLimit * 1000.0
  {
    ToFixed(meters / 1000.0, 1) + " km"
  }

  /** Reads `<km> km` back. */
  function ParseDistance(t: string): Option<real> {
    if |t| >= 3 && t[|t| - 3..] == " km" then ParseFixed(t[..|t| - 3], 1) else None
  }

  /** The distance text reads back as the kilometres rounded to one decimal, within 0.05 km. */
  lemma {:induction false} DistanceRoundTrip(meters: real)
    requires -PlainLimit * 1000.0 < meters < PlainLimit * 1000.0
    ensures ParseDistance(FormatDistance(meters)) == Some(FixedValue(meters / 1000.0, 1))
    ensures -0.05 <= FixedValue(meters / 1000.0, 1) - meters / 1000.0 <= 0.05
  {
    var km := meters / 1000.0;
    var t := FormatDistance(meters);
    assert t[..|t| - 3] == ToFixed(km, 1);
    assert t[|t| - 3..] == " km";
    FixedRoundTrip(km, 1);
    FixedError(km, 1);
  }

  /** `formatSpeed`: `Math.round` of the speed as an integer numeral. */
  function FormatSpeed(speed: real): string
    requires -PlainLimit < speed < PlainLimit
  {
    IntToString(Round(speed))
  }

  /** The speed text reads back as an integer within half a unit of the speed. */
  lemma {:induction false} SpeedRoundTrip(speed: real)
    requires -PlainLimit < speed < PlainLimit
    ensures ParseInt(FormatSpeed(speed)).Some?
    ensures var v := ParseInt(FormatSpeed(speed)).value;
      -0.5 < v as real - speed <= 0.5
  {
    IntRoundTrip(Round(speed));
  }

  /** Halves round up: 120.5 km/h prints as 121. */
  lemma {:induction false} SpeedHalvesUp(k: int)
    requires -PlainLimit < k as real + 0.5 < PlainLimit
    ensures FormatSpeed(k as real + 0.5) == IntToString(k + 1)
  {
    RoundHalfUp(k);
  }
}

=== FILE: mock_samples.dfy ===
/** One sample of the mock trace of the deep-engineering view
    (`components/telemetry/deep-engineering-view.tsx`, `generateTelemetryData`).
    `Math.sin`, `Math.cos` and `Math.random` are parameters with their ranges stated
    as predicates; everything else is exact arithmetic on reals. */
module MockSamples {
  import opened Numeric
  import opened Decimal

  /** `Math.PI` as the decimal the engine prints for it. */
  const PI: real := 3.141592653589793

  /** Number of samples the generator yields: distances 0, 50, ..., 4050. */
  const SampleCount: nat := 82

  /** The sine and cosine the view calls. */
  datatype Trig = Trig(sin: real -> real, cos: real -> real)

  /** Sine and cosine never leave [-1, 1]. */
  ghost predicate UnitRange(trig: Trig) {
    forall a: real :: -1.0 <= trig.sin(a) <= 1.0 && -1.0 <= trig.cos(a) <= 1.0
  }

  /** Sine and cosine repeat after 2 * PI. */
  ghost predicate Periodic(trig: Trig) {
    forall a: real :: trig.sin(a + 2.0 * PI) == trig.sin(a) && trig.cos(a + 2.0 * PI) == trig.cos(a)
  }

  /** The stream of `Math.random()` results: draw `k` is the k-th call. */
  type Draws = nat -> real

  /** Every draw lies in [0, 1). */
  ghost predicate Uniform(random: Draws) {
    forall k: nat :: 0.0 <= random(k) < 1.0
  }

  /** The unrounded quantities computed for one distance. */
  datatype Reading = Reading(
    refSpeed: real,
    currentSpeed: real,
    refRpm: real,
    currentRpm: real,
    corner: bool,
    throttle: real,
    brake: real,
    delta: real)

  /** One element of the generated trace, after `Math.round` and `toFixed(3)`. */
  datatype Sample = Sample(
    distance: int,
    refSpeed: int,
    currentSpeed: int,
    refRpm: int,
    currentRpm: int,
    throttle: int,
    brake: int,
    delta: real)

  /** `(i / 4050) * Math.PI * 4`: two full periods over the lap. */
  function Phase(i: int): real {
    (i as real / 4050.0) * PI * 4.0
  }

  /** The readings at distance `i`, with `random(next)` the first unused draw. The draws are
      taken in the order the statements run: reference RPM, current RPM, throttle, the brake
      only in a corner, and the delta noise. */
  function Simulate(trig: Trig, random: Draws, i: int, next: nat): Reading {
    var phase := Phase(i);
    var baseSpeed := 180.0 + trig.sin(phase) * 60.0;
    var refSpeed := Clamp(80.0, 260.0, baseSpeed + trig.sin(phase * 2.0) * 20.0);
    var currentSpeed := Clamp(80.0, 255.0, baseSpeed + trig.sin(phase * 2.0 + 0.3) * 18.0);
    var refRpm := Clamp(4000.0, 8000.0, 4500.0 + (refSpeed / 260.0) * 3500.0 + random(next) * 200.0);
    var currentRpm := Clamp(4000.0, 8000.0, 4500.0 + (currentSpeed / 260.0) * 3400.0 + random(next + 1) * 200.0);
    var corner := trig.sin(phase * 2.0) < -0.3;
    var throttle :=
      if corner then Max(0.0, 30.0 + random(next + 2) * 30.0)
      else Min(100.0, 85.0 + random(next + 2) * 15.0);
    var brake := if corner then Max(0.0, 60.0 + random(next + 3) * 40.0) else 0.0;
    var noiseDraw := if corner then next + 4 else next + 3;
    var delta := (currentSpeed - refSpeed) / 100.0 * -0.5 + (random(noiseDraw) - 0.5) * 0.1;
    Reading(refSpeed, currentSpeed, refRpm, currentRpm, corner, throttle, brake, delta)
  }

  /** How many draws one distance consumes: five in a corner, four elsewhere. */
  function DrawsUsed(r: Reading): nat {
    if r.corner then 5 else 4
  }

  /** The pushed record: rounded integers and `Number(delta.toFixed(3))`. */
  function ToSample(i: int, r: Reading): Sample {
    Sample(i, Round(r.refSpeed), Round(r.currentSpeed), Round(r.refRpm), Round(r.currentRpm),
      Round(r.throttle), Round(r.brake), FixedValue(r.delta, 3))
  }

  /** One pass of the generator loop: the sample at distance `i` and the next unused draw. */
  function GeneratorStep(trig: Trig, random: Draws, i: int, next: nat): (Sample, nat) {
    var r := Simulate(trig, random, i, next);
    (ToSample(i, r), next + DrawsUsed(r))
  }

  /** The bounds every generated sample keeps. */
  predicate InRanges(s: Sample) {
    && 80 <= s.refSpeed <= 260
    && 80 <= s.currentSpeed <= 255
    && 4000 <= s.refRpm <= 8000
    && 4000 <= s.currentRpm <= 8000
    && ((s.brake == 0 && 85 <= s.throttle <= 100) || (60 <= s.brake <= 100 && 30 <= s.throttle <= 60))
    && -0.925 <= s.delta <= 0.95
  }

  /** The speeds and RPMs stay inside their clamps for any sine and any draws. */
  lemma ClampedReadings(trig: Trig, random: Draws, i: int, next: nat)
    ensures var r := Simulate(trig, random, i, next);
      && 80.0 <= r.refSpeed <= 260.0 && 80.0 <= r.currentSpeed <= 255.0
      && 4000.0 <= r.refRpm <= 8000.0 && 4000.0 <= r.currentRpm <= 8000.0
  {
  }

  /** With draws in [0, 1) the pedals follow the corner flag: a corner brakes and lifts, a straight does not brake. */
  lemma PedalsByCorner(trig: Trig, random: Draws, i: int, next: nat)
    requires Uniform(random)
    ensures var r := Simulate(trig, random, i, next);
      && (r.corner ==> 30.0 <= r.throttle < 60.0 && 60.0 <= r.brake < 100.0)
      && (!r.corner ==> 85.0 <= r.throttle < 100.0 && r.brake == 0.0)
  {
    var r := Simulate(trig, random, i, next);
    assert 0.0 <= random(next + 2) < 1.0;
    assert 0.0 <= random(next + 3) < 1.0;
  }

  /** Before rounding, the delta is (ref - current) / 200 plus noise in [-0.05, 0.05). */
  lemma DeltaNoise(trig: Trig, random: Draws, i: int, next: nat)
    requires Uniform(random)
    ensures var r := Simulate(trig, random, i, next);
      -0.05 <= r.delta - (r.refSpeed - r.currentSpeed) / 200.0 < 0.05
  {
    var r := Simulate(trig, random, i, next);
    var k := if r.corner then next + 4 else next + 3;
    assert 0.0 <= random(k) < 1.0;
  }

  /** Positive delta means slower: ten km/h or more ahead of the reference gives a delta at or
      below zero, ten or more behind gives one at or above zero, before and after `toFixed(3)`. */
  lemma {:induction false} DeltaSign(trig: Trig, random: Draws, i: int, next: nat)
    requires Uniform(random)
    ensures var r := Simulate(trig, random, i, next);
      && (r.currentSpeed - r.refSpeed > 10.0 ==> r.delta < 0.0 && ToSample(i, r).delta <= 0.0)
      && (r.refSpeed - r.currentSpeed > 10.0 ==> r.delta > 0.0 && ToSample(i, r).delta >= 0.0)
  {
    DeltaNoise(trig, random, i, next);
    var r := Simulate(trig, random, i, next);
    if r.delta >= 0.0 {
      ScaleThousand(FixedUnits(r.delta, 3) as real);
    } else {
      ScaleThousand(FixedUnits(-r.delta, 3) as real);
    }
  }

  /** `Number(x.toFixed(3))` keeps a value inside bounds that are whole thousandths. */
  lemma {:induction false} FixedWithin(x: real, lo: int, hi: int)
    requires lo as real / 1000.0 <= x <= hi as real / 1000.0
    ensures lo as real / 1000.0 <= FixedValue(x, 3) <= hi as real / 1000.0
  {
    if x >= 0.0 {
      ScaleThousand(x);
      RoundWithin(Scale(x, 3), lo, hi);
      ScaleThousand(FixedUnits(x, 3) as real);
    } else {
      ScaleThousand(-x);
      RoundWithin(Scale(-x, 3), -hi, -lo);
      ScaleThousand(FixedUnits(-x, 3) as real);
    }
  }

  /** Every sample the generator produces stays within `InRanges`. */
  lemma {:induction false} SampleInRanges(trig: Trig, random: Draws, i: int, next: nat)
    requires Uniform(random)
    ensures InRanges(ToSample(i, Simulate(trig, random, i, next)))
  {
    var r := Simulate(trig, random, i, next);
    ClampedReadings(trig, random, i, next);
    PedalsByCorner(trig, random, i, next);
    DeltaNoise(trig, random, i, next);
    RoundWithin(r.refSpeed, 80, 260);
    RoundWithin(r.currentSpeed, 80, 255);
    RoundWithin(r.refRpm, 4000, 8000);
    RoundWithin(r.currentRpm, 4000, 8000);
    if r.corner {
      RoundWithin(r.throttle, 30, 60);
      RoundWithin(r.brake, 60, 100);
    } else {
      RoundWithin(r.throttle, 85, 100);
    }
    FixedWithin(r.delta, -925, 950);
  }

  /** A braking sample never has the throttle past 60 per cent, and braking happens exactly in corners. */
  lemma BrakeMeansCorner(trig: Trig, random: Draws, i: int, next: nat)
    requires Uniform(random)
    ensures var r := Simulate(trig, random, i, next);
      && (ToSample(i, r).brake > 0 <==> r.corner)
      && (ToSample(i, r).brake > 0 ==> ToSample(i, r).throttle <= 60)
  {
    var r := Simulate(trig, random, i, next);
    PedalsByCorner(trig, random, i, next);
    if r.corner {
      RoundWithin(r.throttle, 30, 60);
      RoundWithin(r.brake, 60, 100);
    }
  }
}

=== FILE: mock_trace.dfy ===
/** The loop of `generateTelemetryData` in the deep-engineering view: one sample every
    50 m from 0 to 4050 m, the draws of `Math.random` consumed in order. */
module MockTrace {
  import opened MockSamples

  /** A step of a sampling loop: the sample at a distance, and the next unused draw. */
  type Stepper = (int, nat) -> (Sample, nat)

  /** The samples a loop over distances i, i + 50, ..., 4050 collects, starting at draw `next`. */
  function Unfold(step: Stepper, i: int, next: nat): seq<Sample>
    decreases 4051 - i
  {
    if i > 4050 then []
    else [step(i, next).0] + Unfold(step, i + 50, step(i, next).1)
  }

  /** The generator loop as a step function over the sine and the draws. */
  function StepperOf(trig: Trig, random: Draws): Stepper {
    (i: int, next: nat) => GeneratorStep(trig, random, i, next)
  }

  /** The whole generated trace, as a reference definition of the generator loop. */
  function Trace(trig: Trig, random: Draws): seq<Sample> {
    Unfold(StepperOf(trig, random), 0, 0)
  }

  /** The generator loop: call `step` at distances 0, 50, ..., 4050, threading the draw index. */
  method CollectSamples(step: Stepper) returns (data: seq<Sample>)
    ensures data == Unfold(step, 0, 0)
    ensures |data| == SampleCount
  {
    data := [];
    var i := 0;
    var next: nat := 0;
    while i <= 4050
      invariant i == 50 * |data| <= 4100
      invariant data + Unfold(step, i, next) == Unfold(step, 0, 0)
    {
      var (sample, after) := step(i, next);
      AppendAssoc(data, [sample], Unfold(step, i + 50, after));
      data := data + [sample];
      next := after;
      i := i + 50;
    }
    assert data + [] == data;
  }

  /** `generateTelemetryData`: samples every 50 m from 0 to 4050 m, drawing from `random` in order. */
  method GenerateTelemetryData(trig: Trig, random: Draws) returns (data: seq<Sample>)
    ensures data == Trace(trig, random)
    ensures |data| == SampleCount
    ensures forall k :: 0 <= k < |data| ==> data[k].distance == 50 * k
    ensures Uniform(random) ==> forall k :: 0 <= k < |data| ==> InRanges(data[k])
  {
    data := CollectSamples(StepperOf(trig, random));
    TraceDistances(trig, random);
    if Uniform(random) {
      TraceInRanges(trig, random);
    }
  }

  lemma AppendAssoc<T>(a: seq<T>, b: seq<T>, c: seq<T>)
    ensures (a + b) + c == a + (b + c)
  {
  }

  /** A loop whose every step records its own distance visits i, i + 50, ..., 4050 in order. */
  lemma {:induction false} UnfoldDistances(step: Stepper, i: int, next: nat)
    requires forall d: int, n: nat :: step(d, n).0.distance == d
    requires 0 <= i <= 4100 && i % 50 == 0
    ensures |Unfold(step, i, next)| == (4100 - i) / 50
    ensures forall k :: 0 <= k < |Unfold(step, i, next)| ==> Unfold(step, i, next)[k].distance == i + 50 * k
    decreases 4100 - i
  {
    if i <= 4050 {
      UnfoldDistances(step, i + 50, step(i, next).1);
    }
  }

  /** A loop whose every step yields a sample within `InRanges` yields only such samples. */
  lemma {:induction false} UnfoldInRanges(step: Stepper, i: int, next: nat)
    requires forall d: int, n: nat :: InRanges(step(d, n).0)
    ensures forall k :: 0 <= k < |Unfold(step, i, next)| ==> InRanges(Unfold(step, i, next)[k])
    decreases 4051 - i
  {
    if i <= 4050 {
      UnfoldInRanges(step, i + 50, step(i, next).1);
    }
  }

  /** The trace has 82 samples, strictly increasing in distance from 0 to 4050, sample k at 50 * k. */
  lemma TraceDistances(trig: Trig, random: Draws)
    ensures var data := Trace(trig, random);
      && |data| == SampleCount
      && data[0].distance == 0 && data[SampleCount - 1].distance == 4050
      && (forall k :: 0 <= k < |data| ==> data[k].distance == 50 * k)
      && (forall k :: 0 < k < |data| ==> data[k - 1].distance < data[k].distance)
  {
    TraceLength(trig, random);
    EvenlySpaced(Trace(trig, random));
  }

  lemma TraceLength(trig: Trig, random: Draws)
    ensures var data := Trace(trig, random);
      && |data| == SampleCount
      && (forall k :: 0 <= k < |data| ==> data[k].distance == 50 * k)
  {
    StepperDistance(trig, random);
    UnfoldFromStart(StepperOf(trig, random));
  }

  lemma UnfoldFromStart(step: Stepper)
    requires forall d: int, n: nat :: step(d, n).0.distance == d
    ensures |Unfold(step, 0, 0)| == SampleCount
    ensures forall k :: 0 <= k < |Unfold(step, 0, 0)| ==> Unfold(step, 0, 0)[k].distance == 50 * k
  {
    UnfoldDistances(step, 0, 0);
  }

  /** Each step records the distance it was called at. */
  lemma StepperDistance(trig: Trig, random: Draws)
    ensures forall d: int, n: nat :: StepperOf(trig, random)(d, n).0.distance == d
  {
  }

  /** Distances 50 * k increase strictly. */
  lemma EvenlySpaced(data: seq<Sample>)
    requires forall k :: 0 <= k < |data| ==> data[k].distance == 50 * k
    ensures forall k :: 0 < k < |data| ==> data[k - 1].distance < data[k].distance
  {
    forall k | 0 < k < |data|
      ensures data[k - 1].distance < data[k].distance
    {
      assert data[k - 1].distance == 50 * (k - 1);
    }
  }

  /** With draws in [0, 1), every sample of the trace stays within `InRanges`. */
  lemma TraceInRanges(trig: Trig, random: Draws)
    requires Uniform(random)
    ensures forall k :: 0 <= k < |Trace(trig, random)| ==> InRanges(Trace(trig, random)[k])
  {
    var step := StepperOf(trig, random);
    forall d: int, n: nat
      ensures InRanges(step(d, n).0)
    {
      SampleInRanges(trig, random, d, n);
    }
    UnfoldInRanges(step, 0, 0);
  }
}

=== FILE: numeric.dfy ===
/** The JavaScript `Math` and `%` operations the telemetry code relies on,
    stated over exact reals (IEEE-754 rounding error is not modelled). */
module Numeric {

  /** `Math.max` on two numbers. */
  function Max(a: real, b: real): real {
    if a >= b then a else b
  }

  /** `Math.min` on two numbers. */
  function Min(a: real, b: real): real {
    if a <= b then a else b
  }

  /** `Math.max(lo, Math.min(hi, v))`, the clamp idiom of the trace generator. */
  function Clamp(lo: real, hi: real, v: real): (r: real)
    ensures lo <= hi ==> lo <= r <= hi
    ensures lo <= v <= hi ==> r == v
    ensures lo <= hi && v < lo ==> r == lo
    ensures lo <= hi && hi < v ==> r == hi
  {
    Max(lo, Min(hi, v))
  }

  /** `Math.round`: the nearest integer, a half rounding towards +infinity. */
  function Round(x: real): (r: int)
    ensures x - 0.5 < r as real <= x + 0.5
  {
    (x + 0.5).Floor
  }

  /** Truncation towards zero, as `ToIntegerOrInfinity` does for finite numbers. */
  function Trunc(x: real): (r: int)
    ensures x >= 0.0 ==> r as real <= x < r as real + 1.0
    ensures x < 0.0 ==> r as real - 1.0 < x <= r as real
  {
    if x >= 0.0 then x.Floor else -((-x).Floor)
  }

  /** The JavaScript remainder `x % y`: the dividend's sign, magnitude below |y|. */
  function JsRem(x: real, y: real): (r: real)
    requires y > 0.0
    ensures x >= 0.0 ==> 0.0 <= r < y
    ensures x < 0.0 ==> -y < r <= 0.0
    ensures x >= 0.0 ==> r == x - y * (x / y).Floor as real
  {
    var q := Trunc(x / y);
    QuotientSign(x, y);
    if x >= 0.0 then
      MultipleBelow(x, y, q as real);
      NextMultipleAbove(x, y, q as real);
      x - y * q as real
    else
      MultipleAbove(x, y, q as real);
      PreviousMultipleBelow(x, y, q as real);
      x - y * q as real
  }

  /** `%` is odd in its dividend: negating `x` negates the remainder, so for x < 0 it is
      x - y * trunc(x / y), the remainder of |x| with the sign of x. */
  lemma JsRemOdd(x: real, y: real)
    requires y > 0.0
    ensures JsRem(-x, y) == -JsRem(x, y)
  {
    assert -x / y == -(x / y);
    if x / y != 0.0 {
      assert Trunc(-(x / y)) == -Trunc(x / y);
    }
  }

  lemma QuotientSign(x: real, y: real)
    requires y > 0.0
    ensures x >= 0.0 <==> x / y >= 0.0
  {
  }

  /** Multiplying by a positive factor preserves order. */
  lemma ScaleOrder(y: real, a: real, b: real)
    requires y > 0.0
    ensures a <= b ==> y * a <= y * b
    ensures a < b ==> y * a < y * b
  {
  }

  // The four bounds below relate a quotient to multiples of the divisor; each
  // is kept separate because the solver loses the linear step once they share
  // one context.

  lemma MultipleBelow(x: real, y: real, w: real)
    requires y > 0.0 && w <= x / y
    ensures y * w <= x
  {
    var v := x / y;
    assert y * v == x;
    ScaleOrder(y, w, v);
  }

  lemma NextMultipleAbove(x: real, y: real, w: real)
    requires y > 0.0 && x / y < w + 1.0
    ensures x < y * w + y
  {
    var v := x / y;
    assert y * v == x;
    ScaleOrder(y, v, w + 1.0);
    assert y * (w + 1.0) == y * w + y;
  }

  lemma MultipleAbove(x: real, y: real, w: real)
    requires y > 0.0 && x / y <= w
    ensures x <= y * w
  {
    var v := x / y;
    assert y * v == x;
    ScaleOrder(y, v, w);
  }

  lemma PreviousMultipleBelow(x: real, y: real, w: real)
    requires y > 0.0 && w - 1.0 < x / y
    ensures y * w - y < x
  {
    var v := x / y;
    assert y * v == x;
    ScaleOrder(y, w - 1.0, v);
    assert y * (w - 1.0) == y * w - y;
  }

  /** 10 to the power `n`. */
  function Pow10(n: nat): (p: nat)
    ensures p >= 1
  {
    if n == 0 then 1 else 10 * Pow10(n - 1)
  }

  /** x * 10^f, written as `f` multiplications by ten so that it stays linear for the solver. */
  function Scale(x: real, f: nat): (r: real)
    ensures x >= 0.0 ==> r >= 0.0
  {
    if f == 0 then x else Scale(x, f - 1) * 10.0
  }

  /** y / 10^f, written as `f` divisions by ten. */
  function Unscale(y: real, f: nat): real {
    if f == 0 then y else Unscale(y, f - 1) / 10.0
  }

  /** Dividing by 10^f undoes multiplying by it. */
  lemma {:induction false} UnscaleScale(x: real, f: nat)
    ensures Unscale(Scale(x, f), f) == x
  {
    if f > 0 {
      UnscaleShift(Scale(x, f - 1), f - 1);
      UnscaleScale(x, f - 1);
    }
  }

  /** Scaling by ten first and dividing by 10^(f+1) is dividing by 10^f. */
  lemma {:induction false} UnscaleShift(y: real, f: nat)
    ensures Unscale(y * 10.0, f + 1) == Unscale(y, f)
  {
    if f > 0 {
      UnscaleShift(y, f - 1);
    }
  }

  /** Division by 10^f distributes over sums. */
  lemma {:induction false} UnscaleAdd(a: real, b: real, f: nat)
    ensures Unscale(a + b, f) == Unscale(a, f) + Unscale(b, f)
  {
    if f > 0 {
      UnscaleAdd(a, b, f - 1);
    }
  }

  /** Division by 10^f commutes with negation. */
  lemma {:induction false} UnscaleNegate(a: real, f: nat)
    ensures Unscale(-a, f) == -Unscale(a, f)
  {
    if f > 0 {
      UnscaleNegate(a, f - 1);
    }
  }

  /** Division by 10^f preserves order. */
  lemma {:induction false} UnscaleMonotone(a: real, b: real, f: nat)
    requires a <= b
    ensures Unscale(a, f) <= Unscale(b, f)
    ensures a < b ==> Unscale(a, f) < Unscale(b, f)
  {
    if f > 0 {
      UnscaleMonotone(a, b, f - 1);
    }
  }

  /** Three decimal places: scaling by 10^3 is multiplying by a thousand. */
  lemma ScaleThousand(x: real)
    ensures Scale(x, 3) == x * 1000.0
    ensures Unscale(x, 3) == x / 1000.0
  {
    assert Scale(x, 1) == x * 10.0;
    assert Scale(x, 2) == x * 100.0;
    assert Unscale(x, 1) == x / 10.0;
    assert Unscale(x, 2) == x / 100.0;
  }

  /** Halves round up. */
  lemma RoundHalfUp(k: int)
    ensures Round(k as real + 0.5) == k + 1
  {
  }

  /** `Math.round` is the identity on integers. */
  lemma RoundInteger(k: int)
    ensures Round(k as real) == k
  {
  }

  /** `Math.round` never reverses the order of its inputs. */
  lemma RoundMonotone(x: real, y: real)
    requires x <= y
    ensures Round(x) <= Round(y)
  {
  }

  /** A value within [lo, hi] for integers lo, hi still lies there after `Math.round`. */
  lemma RoundWithin(x: real, lo: int, hi: int)
    requires lo as real <= x <= hi as real
    ensures lo <= Round(x) <= hi
  {
  }
}

=== FILE: strings.dfy ===
/** String helpers the formatters and the API client rely on: `padStart`,
    and splitting a string at a separator character together with its inverse. */
module Strings {

  /** `k` copies of `c`. */
  function Repeat(c: char, k: nat): (s: string)
    ensures |s| == k
    ensures forall i :: 0 <= i < k ==> s[i] == c
  {
    if k == 0 then "" else [c] + Repeat(c, k - 1)
  }

  /** `String.prototype.padStart(width, c)` for a one-character pad string. */
  function PadStart(s: string, width: nat, c: char): (r: string)
    ensures |s| >= width ==> r == s
    ensures |s| < width ==> |r| == width
    ensures |r| >= |s| && r[|r| - |s|..] == s
    ensures forall i :: 0 <= i < |r| - |s| ==> r[i] == c
  {
    if |s| >= width then s else Repeat(c, width - |s|) + s
  }

  /** The pieces of `parts` glued together with `sep` between neighbours. */
  function Join(parts: seq<string>, sep: char): string
    requires |parts| >= 1
  {
    if |parts| == 1 then parts[0] else parts[0] + [sep] + Join(parts[1..], sep)
  }

  /** `String.prototype.split` at a single character: the maximal runs free of `sep`. */
  function Split(s: string, sep: char): (parts: seq<string>)
    ensures |parts| >= 1
    ensures forall i :: 0 <= i < |parts| ==> sep !in parts[i]
  {
    if |s| == 0 then [""]
    else
      var rest := Split(s[1..], sep);
      if s[0] == sep then [""] + rest
      else
        assert forall i :: 1 <= i < |rest| ==> sep !in rest[i];
        [[s[0]] + rest[0]] + rest[1..]
  }

  /** Splitting loses nothing: joining the pieces gives back the string. */
  lemma {:induction false} JoinSplit(s: string, sep: char)
    ensures Join(Split(s, sep), sep) == s
  {
    if |s| > 0 {
      var rest := Split(s[1..], sep);
      JoinSplit(s[1..], sep);
      if s[0] == sep {
        assert Split(s, sep) == [""] + rest;
        assert Split(s, sep)[1..] == rest;
        assert s == [sep] + s[1..];
      } else {
        var parts := [[s[0]] + rest[0]] + rest[1..];
        assert Split(s, sep) == parts;
        if |rest| == 1 {
          assert s == [s[0]] + s[1..];
        } else {
          assert parts[1..] == rest[1..];
          assert Join(rest, sep) == rest[0] + [sep] + Join(rest[1..], sep);
          assert s == [s[0]] + s[1..];
        }
      }
    }
  }

  /** A piece free of `sep` followed by `sep` splits off as the first piece. */
  lemma {:induction false} SplitAfterPiece(p: string, t: string, sep: char)
    requires sep !in p
    ensures Split(p + [sep] + t, sep) == [p] + Split(t, sep)
  {
    if |p| == 0 {
      assert p + [sep] + t == [sep] + t;
      assert ([sep] + t)[1..] == t;
    } else {
      SplitAfterPiece(p[1..], t, sep);
      assert (p + [sep] + t)[1..] == p[1..] + [sep] + t;
      assert [p[0]] + p[1..] == p;
    }
  }

  /** A string free of `sep` is a single piece. */
  lemma {:induction false} SplitWhole(p: string, sep: char)
    requires sep !in p
    ensures Split(p, sep) == [p]
  {
    if |p| > 0 {
      SplitWhole(p[1..], sep);
      assert [p[0]] + p[1..] == p;
    }
  }

  /** Joining pieces that do not contain `sep` and splitting again gives the pieces back. */
  lemma {:induction false} SplitJoin(parts: seq<string>, sep: char)
    requires |parts| >= 1
    requires forall i :: 0 <= i < |parts| ==> sep !in parts[i]
    ensures Split(Join(parts, sep), sep) == parts
  {
    if |parts| == 1 {
      SplitWhole(parts[0], sep);
    } else {
      SplitJoin(parts[1..], sep);
      SplitAfterPiece(parts[0], Join(parts[1..], sep), sep);
      assert [parts[0]] + parts[1..] == parts;
    }
  }

  /** Two pieces free of `sep`, joined by it, split back into those two pieces. */
  lemma SplitTwo(a: string, b: string, sep: char)
    requires sep !in a && sep !in b
    ensures Split(a + [sep] + b, sep) == [a, b]
  {
    assert Join([a, b], sep) == a + [sep] + Join([b], sep);
    SplitJoin([a, b], sep);
  }

  /** Three pieces free of `sep`, joined by it, split back into those three pieces. */
  lemma SplitThree(a: string, b: string, c: string, sep: char)
    requires sep !in a && sep !in b && sep !in c
    ensures Split(a + [sep] + b + [sep] + c, sep) == [a, b, c]
  {
    var tail := b + [sep] + c;
    assert a + [sep] + b + [sep] + c == a + [sep] + tail;
    SplitAfterPiece(a, tail, sep);
    SplitTwo(b, c, sep);
  }
}

=== FILE: telemetry_api.dfy ===
/** The pure parts of the API client `lib/api/telemetry.ts`: the base-URL normalisation,
    the endpoint URLs, and the classification of HTTP responses into results and errors.
    The requests themselves (`fetch`, form data, the storage upload) are not modelled; a
    response enters as a value. */
module TelemetryApi {
  import opened Wrappers
  import opened Strings
  import opened Decimal
  import opened TelemetryTypes

  /** The server used when no API URL is configured. */
  const DefaultBaseUrl: string := "http://localhost:8000"

  /** The path of the telemetry API below the base URL. */
  const TelemetryPath: string := "/api/v1/telemetry"

  /** `replace(/\/$/, "")`: one slash at the very end is removed. */
  function DropTrailingSlash(s: string): string {
    if |s| > 0 && s[|s| - 1] == '/' then s[..|s| - 1] else s
  }

  /** `BASE_URL`: the configured value without a final slash, or the default when that is unset or empty. */
  function BaseUrl(configured: Option<string>): string {
    match configured
    case None => DefaultBaseUrl
    case Some(v) =>
      var trimmed := DropTrailingSlash(v);
      if trimmed == "" then DefaultBaseUrl else trimmed
  }

  /** `API_BASE`. */
  function ApiBase(configured: Option<string>): (url: string)
    ensures |url| >= |TelemetryPath| && url[|url| - |TelemetryPath|..] == TelemetryPath
    ensures url[..|url| - |TelemetryPath|] == BaseUrl(configured)
  {
    BaseUrl(configured) + TelemetryPath
  }

  /** Exactly one trailing slash is removed when there is one, and nothing otherwise: the base
      URL is the configured value, or it with one slash appended is; and a value is replaced by
      the default exactly when it is unset, empty or a single slash. */
  lemma BaseUrlTrimsOneSlash(v: string)
    ensures BaseUrl(Some(v)) == v || BaseUrl(Some(v)) + "/" == v || BaseUrl(Some(v)) == DefaultBaseUrl
    ensures DropTrailingSlash(v) == "" <==> v == "" || v == "/"
    ensures v != "" && v != "/" ==> BaseUrl(Some(v)) + "/" == v || BaseUrl(Some(v)) == v
    ensures |v| >= 2 && v[|v| - 1] == '/' ==> BaseUrl(Some(v)) == v[..|v| - 1]
    ensures |v| >= 1 && v[|v| - 1] != '/' ==> BaseUrl(Some(v)) == v
  {
    if |v| > 0 && v[|v| - 1] == '/' {
      assert v[..|v| - 1] + "/" == v;
    }
  }

  /** A doubled slash at the end keeps one slash. */
  lemma BaseUrlKeepsSecondSlash(v: string)
    ensures BaseUrl(Some(v + "//")) == v + "/"
  {
    assert (v + "//")[..|v + "//"| - 1] == v + "/";
  }

  /** Unset, empty and `/` all fall back to the default server. */
  lemma BaseUrlDefaults()
    ensures BaseUrl(None) == DefaultBaseUrl
    ensures BaseUrl(Some("")) == DefaultBaseUrl
    ensures BaseUrl(Some("/")) == DefaultBaseUrl
    ensures ApiBase(None) == "http://localhost:8000/api/v1/telemetry"
  {
  }

  // ---------------------------------------------------------------- endpoints

  /** The requests the client makes. */
  datatype Route =
    | Upload
    | SessionLaps(sessionId: string)
    | LapDetails(sessionId: string, lapNumber: int)
    | ProcessFromStorage
    | SessionList

  /** The URL requested for `route` below `apiBase`; ids are inserted as they are. */
  function Endpoint(apiBase: string, route: Route): (url: string)
    ensures |url| > |apiBase| && url[..|apiBase|] == apiBase && url[|apiBase|] == '/'
  {
    match route
    case Upload => apiBase + "/upload"
    case SessionLaps(id) => apiBase + "/sessions/" + id + "/laps"
    case LapDetails(id, n) => apiBase + "/sessions/" + id + "/laps/" + IntToString(n) + "/details"
    case ProcessFromStorage => apiBase + "/process-from-storage"
    case SessionList => apiBase + "/sessions"
  }

  /** The path segments of an endpoint below the API base. */
  function RouteSegments(route: Route): seq<string> {
    match route
    case Upload => ["", "upload"]
    case SessionLaps(id) => ["", "sessions", id, "laps"]
    case LapDetails(id, n) => ["", "sessions", id, "laps", IntToString(n), "details"]
    case ProcessFromStorage => ["", "process-from-storage"]
    case SessionList => ["", "sessions"]
  }

  /** Recognises a URL below `apiBase` as one of the client's routes. */
  function ParseRoute(apiBase: string, url: string): Option<Route> {
    if |url| < |apiBase| || url[..|apiBase|] != apiBase then None
    else ParseSegments(Split(url[|apiBase|..], '/'))
  }

  /** Recognises the path segments below the API base as one of the client's routes. */
  function ParseSegments(p: seq<string>): Option<Route> {
    if p == ["", "upload"] then Some(Upload)
    else if p == ["", "process-from-storage"] then Some(ProcessFromStorage)
    else if p == ["", "sessions"] then Some(SessionList)
    else if |p| == 4 && p[0] == "" && p[1] == "sessions" && p[3] == "laps" then Some(SessionLaps(p[2]))
    else if |p| == 6 && p[0] == "" && p[1] == "sessions" && p[3] == "laps" && p[5] == "details" then
      match ParseInt(p[4])
      case Some(n) => Some(LapDetails(p[2], n))
      case None => None
    else None
  }

  /** Session ids that hold no `/` keep the URL structure intact. */
  predicate PlainIds(route: Route) {
    match route
    case SessionLaps(id) => '/' !in id
    case LapDetails(id, _) => '/' !in id
    case _ => true
  }

  lemma LapsSplit(apiBase: string, id: string)
    requires '/' !in id
    ensures Split(Endpoint(apiBase, SessionLaps(id))[|apiBase|..], '/') == RouteSegments(SessionLaps(id))
  {
    ThreeSegmentTail(apiBase, "/sessions/", id, "/laps", "sessions", "laps");
    ThreeSegmentSplit("sessions", id, "laps");
  }

  /** The tail of a three-segment URL, rebracketed so that it splits one segment at a time. */
  lemma ThreeSegmentTail(base: string, a: string, id: string, c: string, s1: string, s3: string)
    requires a == ['/'] + s1 + ['/'] && c == ['/'] + s3
    ensures (base + a + id + c)[|base|..] == "" + ['/'] + (s1 + ['/'] + (id + ['/'] + s3))
  {
    assert (base + a + id + c)[|base|..] == a + id + c;
  }

  /** Splitting the rebracketed three-segment tail at `/` gives back its segments. */
  lemma ThreeSegmentSplit(s1: string, id: string, s3: string)
    requires '/' !in s1 && '/' !in id && '/' !in s3
    ensures Split("" + ['/'] + (s1 + ['/'] + (id + ['/'] + s3)), '/') == ["", s1, id, s3]
  {
    var r2 := id + ['/'] + s3;
    var r1 := s1 + ['/'] + r2;
    SplitWhole(s3, '/');
    SplitAfterPiece(id, s3, '/');
    SplitAfterPiece(s1, r2, '/');
    SplitAfterPiece("", r1, '/');
  }

  /** The tail of a five-segment URL, rebracketed so that it splits one segment at a time. */
  lemma FiveSegmentTail(base: string, a: string, id: string, b: string, k: string, c: string,
                        s1: string, s3: string, s5: string)
    requires a == ['/'] + s1 + ['/'] && b == ['/'] + s3 + ['/'] && c == ['/'] + s5
    ensures (base + a + id + b + k + c)[|base|..] == "" + ['/'] + (s1 + ['/'] + (id + ['/'] + (s3 + ['/'] + (k + ['/'] + s5))))
  {
    assert (base + a + id + b + k + c)[|base|..] == a + id + b + k + c;
  }

  /** Splitting the rebracketed five-segment tail at `/` gives back its segments. */
  lemma FiveSegmentSplit(s1: string, id: string, s3: string, k: string, s5: string)
    requires '/' !in s1 && '/' !in id && '/' !in s3 && '/' !in k && '/' !in s5
    ensures Split("" + ['/'] + (s1 + ['/'] + (id + ['/'] + (s3 + ['/'] + (k + ['/'] + s5)))), '/')
         == ["", s1, id, s3, k, s5]
  {
    var r4 := k + ['/'] + s5;
    var r3 := s3 + ['/'] + r4;
    var r2 := id + ['/'] + r3;
    var r1 := s1 + ['/'] + r2;
    SplitWhole(s5, '/');
    SplitAfterPiece(k, s5, '/');
    SplitAfterPiece(s3, r4, '/');
    SplitAfterPiece(id, r3, '/');
    SplitAfterPiece(s1, r2, '/');
    SplitAfterPiece("", r1, '/');
  }

  lemma DetailsSplit(apiBase: string, id: string, n: int)
    requires '/' !in id
    ensures Split(Endpoint(apiBase, LapDetails(id, n))[|apiBase|..], '/') == RouteSegments(LapDetails(id, n))
  {
    var k := IntToString(n);
    IntTextCharacters(n, '/');
    FiveSegmentTail(apiBase, "/sessions/", id, "/laps/", k, "/details", "sessions", "laps", "details");
    FiveSegmentSplit("sessions", id, "laps", k, "details");
  }

  lemma SimpleSplit(apiBase: string, name: string)
    requires '/' !in name
    ensures Split((apiBase + "/" + name)[|apiBase|..], '/') == ["", name]
  {
    assert (apiBase + "/" + name)[|apiBase|..] == "" + ['/'] + name;
    SplitWhole(name, '/');
    SplitAfterPiece("", name, '/');
  }

  /** Parsing a URL below `apiBase` looks only at the segments after it. */
  lemma ParseBySegments(apiBase: string, route: Route)
    ensures var url := Endpoint(apiBase, route);
      ParseRoute(apiBase, url) == ParseSegments(Split(url[|apiBase|..], '/'))
  {
  }

  lemma LapsRoute(apiBase: string, id: string)
    requires '/' !in id
    ensures ParseRoute(apiBase, Endpoint(apiBase, SessionLaps(id))) == Some(SessionLaps(id))
  {
    ParseBySegments(apiBase, SessionLaps(id));
    LapsSplit(apiBase, id);
    var p := ["", "sessions", id, "laps"];
    assert |p| == 4;
  }

  lemma DetailsRoute(apiBase: string, id: string, n: int)
    requires '/' !in id
    ensures ParseRoute(apiBase, Endpoint(apiBase, LapDetails(id, n))) == Some(LapDetails(id, n))
  {
    ParseBySegments(apiBase, LapDetails(id, n));
    DetailsSplit(apiBase, id, n);
    DetailsSegments(id, n);
  }

  lemma DetailsSegments(id: string, n: int)
    ensures ParseSegments(["", "sessions", id, "laps", IntToString(n), "details"]) == Some(LapDetails(id, n))
  {
    IntRoundTrip(n);
    var p := ["", "sessions", id, "laps", IntToString(n), "details"];
    assert |p| == 6;
  }

  /** A one-segment endpoint parses back to its route when its segment does. */
  lemma SimpleRoute(apiBase: string, name: string, route: Route)
    requires '/' !in name
    requires Endpoint(apiBase, route) == apiBase + "/" + name
    requires ParseSegments(["", name]) == Some(route)
    ensures ParseRoute(apiBase, Endpoint(apiBase, route)) == Some(route)
  {
    ParseBySegments(apiBase, route);
    SimpleSplit(apiBase, name);
  }

  /** Every endpoint URL is recognised as the route that built it, whenever the ids hold no `/`. */
  lemma {:induction false} RouteRoundTrip(apiBase: string, route: Route)
    requires PlainIds(route)
    ensures ParseRoute(apiBase, Endpoint(apiBase, route)) == Some(route)
  {
    match route
    case SessionLaps(id) => LapsRoute(apiBase, id);
    case LapDetails(id, n) => DetailsRoute(apiBase, id, n);
    case Upload => UploadRoute(apiBase);
    case ProcessFromStorage => StorageRoute(apiBase);
    case SessionList => ListRoute(apiBase);
  }

  lemma UploadRoute(apiBase: string)
    ensures ParseRoute(apiBase, Endpoint(apiBase, Upload)) == Some(Upload)
  {
    SimpleRoute(apiBase, "upload", Upload);
  }

  lemma StorageRoute(apiBase: string)
    ensures ParseRoute(apiBase, Endpoint(apiBase, ProcessFromStorage)) == Some(ProcessFromStorage)
  {
    SimpleRoute(apiBase, "process-from-storage", ProcessFromStorage);
  }

  lemma ListRoute(apiBase: string)
    ensures ParseRoute(apiBase, Endpoint(apiBase, SessionList)) == Some(SessionList)
  {
    SimpleRoute(apiBase, "sessions", SessionList);
  }

  /** Ids are not encoded, so one holding `/` shifts the path segments: the session-laps URL
      of the id `a/laps/7` is not recognised as any route. */
  lemma IdsEscape(apiBase: string)
    ensures ParseRoute(apiBase, Endpoint(apiBase, SessionLaps("a/laps/7"))) == None
  {
    ParseBySegments(apiBase, SessionLaps("a/laps/7"));
    assert Endpoint(apiBase, SessionLaps("a/laps/7")) == apiBase + "/sessions/" + "a" + "/laps/" + "7" + "/laps";
    FiveSegmentTail(apiBase, "/sessions/", "a", "/laps/", "7", "/laps", "sessions", "laps", "laps");
    FiveSegmentSplit("sessions", "a", "laps", "7", "laps");
    var p := ["", "sessions", "a", "laps", "7", "laps"];
    assert |p| == 6 && p[5] != "details";
  }

  /** `${Date.now()}_${file.name}`: the object name of a storage upload. */
  function StorageName(now: int, fileName: string): (name: string)
    ensures |name| > |fileName| && name[|name| - |fileName|..] == fileName
  {
    IntToString(now) + "_" + fileName
  }

  /** The name records the upload time and the file name, separated at its first underscore. */
  lemma {:induction false} StorageNameParts(now: int, fileName: string)
    ensures Split(StorageName(now, fileName), '_')[0] == IntToString(now)
    ensures ParseInt(Split(StorageName(now, fileName), '_')[0]) == Some(now)
  {
    IntTextCharacters(now, '_');
    IntRoundTrip(now);
    assert StorageName(now, fileName) == IntToString(now) + ['_'] + fileName;
    SplitAfterPiece(IntToString(now), fileName, '_');
  }

  // ---------------------------------------------------------------- responses

  /** What `response.json()` yields: a value and its `detail` field (a missing field and
      `undefined` are both `None`), or a parse failure with the engine's error message. */
  datatype Body<T> = Json(value: T, detail: Option<string>) | Unparseable(reason: string)

  datatype Response<T> = Response(status: int, body: Body<T>)

  /** What a call can throw: an `ApiError`, another `Error`, or a value that is not an `Error`. */
  datatype Exception =
    | ApiError(message: string, status: int, detail: Option<string>)
    | OtherError(message: string)
    | NonError

  /** The message of a 413 response, whatever its body. */
  const TooLargeMessage: string := "El archivo es demasiado grande para el servidor (Límite 4.5MB)."

  /** The prefix of the message used when the server gives no detail. */
  const ServerErrorPrefix: string := "Error de servidor: "

  /** `response.ok`: a status in 200..299. */
  predicate IsOk(status: int) {
    200 <= status <= 299
  }

  /** `detail || fallback`: the empty string counts as absent. */
  function DetailOr(detail: Option<string>, fallback: string): string {
    if detail.Some? && detail.value != "" then detail.value else fallback
  }

  /** `handleResponse`: an ok response yields its parsed body; any other throws an `ApiError`. */
  function HandleResponse<T>(response: Response<T>): Result<T, Exception> {
    if !IsOk(response.status) then
      var detail := if response.body.Json? then response.body.detail else None;
      if response.status == 413 then Failure(ApiError(TooLargeMessage, 413, None))
      else
        Failure(ApiError(DetailOr(detail, ServerErrorPrefix + IntToString(response.status)),
          response.status, detail))
    else
      match response.body
      case Json(v, _) => Success(v)
      case Unparseable(reason) => Failure(OtherError(reason))
  }

  /** An `ApiError` is thrown exactly for statuses outside 200..299, and it carries the status. */
  lemma ApiErrorIffNotOk<T>(response: Response<T>)
    ensures (HandleResponse(response).Failure? && HandleResponse(response).error.ApiError?)
        <==> !IsOk(response.status)
    ensures HandleResponse(response).Failure? && HandleResponse(response).error.ApiError?
        ==> HandleResponse(response).error.status == response.status
  {
  }

  /** An ok response with a JSON body never fails, and yields that body. */
  lemma OkYieldsBody<T>(status: int, value: T, detail: Option<string>)
    requires IsOk(status)
    ensures HandleResponse(Response(status, Json(value, detail))) == Success(value)
  {
  }

  /** An ok response whose body does not parse fails with the parser's error, not an `ApiError`. */
  lemma OkUnparseable<T>(response: Response<T>)
    requires IsOk(response.status) && response.body.Unparseable?
    ensures HandleResponse(response) == Failure(OtherError(response.body.reason))
  {
  }

  /** A 413 gives the size-limit message and no detail, whatever the body says. */
  lemma PayloadTooLarge<T>(body: Body<T>)
    ensures HandleResponse(Response(413, body)) == Failure(ApiError(TooLargeMessage, 413, None))
  {
  }

  /** Any other failure status keeps the body's detail, and uses it as the message when it is non-empty. */
  lemma ServerDetail<T>(status: int, value: T, detail: string)
    requires !IsOk(status) && status != 413
    ensures var e := HandleResponse(Response(status, Json(value, Some(detail)))).error;
      && e.ApiError? && e.status == status && e.detail == Some(detail)
      && (detail != "" ==> e.message == detail)
      && (detail == "" ==> e.message == ServerErrorPrefix + IntToString(status))
  {
  }

  /** Without a usable detail (no field, an empty one, or a body that does not parse) the message
      names the status, and the status can be read back from it. */
  lemma {:induction false} GenericMessage<T>(response: Response<T>)
    requires !IsOk(response.status) && response.status != 413
    requires response.body.Unparseable? || response.body.detail.None? || response.body.detail == Some("")
    ensures var e := HandleResponse(response).error;
      && e.ApiError?
      && e.message == ServerErrorPrefix + IntToString(response.status)
      && e.message[..|ServerErrorPrefix|] == ServerErrorPrefix
      && ParseInt(e.message[|ServerErrorPrefix|..]) == Some(response.status)
      && (response.body.Unparseable? ==> e.detail.None?)
  {
    var e := HandleResponse(response).error;
    assert e.message[|ServerErrorPrefix|..] == IntToString(response.status);
    IntRoundTrip(response.status);
  }

  // ---------------------------------------------------------------- client operations

  /** The server, as the response it gives to a request for a URL. */
  type Server<T> = string -> Response<T>

  /** `uploadFile`, `fetchSession`, `fetchLapDetail`: one request to the route's URL, then `handleResponse`. */
  function Request<T>(apiBase: string, route: Route, server: Server<T>): Result<T, Exception> {
    HandleResponse(server(Endpoint(apiBase, route)))
  }

  /** The body of the session-list response. */
  datatype SessionsPage<T> = SessionsPage(sessions: seq<T>)

  /** `fetchSessions`: the `sessions` field of the session-list response. */
  function FetchSessions<T>(apiBase: string, server: Server<SessionsPage<T>>): (r: Result<seq<T>, Exception>)
    ensures r.Success? <==> Request(apiBase, SessionList, server).Success?
    ensures r.Success? ==> r.value == Request(apiBase, SessionList, server).value.sessions
    ensures r.Failure? ==> r.error == Request(apiBase, SessionList, server).error
  {
    var page :- Request(apiBase, SessionList, server);
    Success(page.sessions)
  }

  /** The message of a failed storage upload. */
  function StorageErrorMessage(reason: string): string {
    "Error uploading to storage: " + reason
  }

  /** `uploadFileViaStorage`: store the file under its timestamped name, and only when that
      succeeds ask the server to process it. `store` answers the storage upload with an error
      message, if any. */
  function UploadViaStorage(apiBase: string, now: int, fileName: string,
                            store: string -> Option<string>, server: Server<Session>): Result<Session, Exception> {
    match store(StorageName(now, fileName))
    case Some(reason) => Failure(OtherError(StorageErrorMessage(reason)))
    case None => Request(apiBase, ProcessFromStorage, server)
  }

  /** A failed storage upload ends the operation with a plain `Error`, whatever the server would say;
      a successful one is followed by the processing request and its classification. */
  lemma StorageFailureStops(apiBase: string, now: int, fileName: string,
                            store: string -> Option<string>, server: Server<Session>, other: Server<Session>)
    ensures store(StorageName(now, fileName)).Some? ==>
      && UploadViaStorage(apiBase, now, fileName, store, server) == UploadViaStorage(apiBase, now, fileName, store, other)
      && UploadViaStorage(apiBase, now, fileName, store, server)
           == Failure(OtherError(StorageErrorMessage(store(StorageName(now, fileName)).value)))
    ensures store(StorageName(now, fileName)).None? ==>
      UploadViaStorage(apiBase, now, fileName, store, server)
        == HandleResponse(server(apiBase + "/process-from-storage"))
  {
  }
}

=== FILE: telemetry_hook.dfy ===
/** The `useTelemetry` hook (`hooks/use-telemetry.ts`): the session, loading flag and error
    message a page sees, and how each of the hook's operations moves them. A request's outcome
    enters as a value, the classified response of the API client; each request is taken to run
    to completion before the next operation starts. */
module TelemetryHook {
  import opened Wrappers
  import opened Decimal
  import opened TelemetryTypes
  import TelemetryApi

  /** The hook's three pieces of state. */
  datatype HookState = HookState(session: Option<Session>, loading: bool, error: Option<string>)

  /** No session, not loading, no error. */
  const Initial: HookState := HookState(None, false, None)

  const UploadFailed: string := "Upload failed"
  const SessionFailed: string := "Failed to fetch session"
  const LapDetailFailed: string := "Failed to fetch lap detail"

  /** `e instanceof Error ? e.message : fallback`; an `ApiError` is an `Error`. */
  function ErrorMessage(e: TelemetryApi.Exception, fallback: string): (m: string)
    ensures e.NonError? ==> m == fallback
    ensures e.ApiError? || e.OtherError? ==> m == e.message
  {
    match e
    case ApiError(message, _, _) => message
    case OtherError(message) => message
    case NonError => fallback
  }

  // ---------------------------------------------------------------- one request

  /** The state while a request is awaited: loading, the previous error dropped, the session kept. */
  function Pending(st: HookState): (p: HookState)
    ensures p.loading && p.error.None? && p.session == st.session
  {
    st.(loading := true, error := None)
  }

  /** `uploadFile` and `fetchSession`: on success the session is replaced and returned; on failure
      the session is kept, the error message recorded and nothing returned; loading ends either way. */
  function LoadSession(st: HookState, outcome: Result<Session, TelemetryApi.Exception>, fallback: string)
    : (r: (HookState, Option<Session>))
    ensures !r.0.loading
    ensures r.1.Some? <==> outcome.Success?
    ensures outcome.Success? ==> r.0.session == r.1 == Some(outcome.value) && r.0.error.None?
    ensures outcome.Failure? ==>
      r.0.session == st.session && r.0.error == Some(ErrorMessage(outcome.error, fallback))
  {
    var p := Pending(st);
    match outcome
    case Success(s) => (p.(session := Some(s), loading := false), Some(s))
    case Failure(e) => (p.(error := Some(ErrorMessage(e, fallback)), loading := false), None)
  }

  /** `uploadFile`, whose failure message defaults to "Upload failed". */
  function UploadFile(st: HookState, outcome: Result<Session, TelemetryApi.Exception>): (HookState, Option<Session>) {
    LoadSession(st, outcome, UploadFailed)
  }

  /** `fetchSession`, whose failure message defaults to "Failed to fetch session". */
  function FetchSession(st: HookState, outcome: Result<Session, TelemetryApi.Exception>): (HookState, Option<Session>) {
    LoadSession(st, outcome, SessionFailed)
  }

  /** `fetchLapDetail`: the lap is returned, never stored; the session is never touched. */
  function FetchLapDetail(st: HookState, outcome: Result<LapDetail, TelemetryApi.Exception>)
    : (r: (HookState, Option<LapDetail>))
    ensures !r.0.loading && r.0.session == st.session
    ensures r.1.Some? <==> outcome.Success?
    ensures outcome.Success? ==> r.1 == Some(outcome.value) && r.0.error.None?
    ensures outcome.Failure? ==> r.0.error == Some(ErrorMessage(outcome.error, LapDetailFailed))
  {
    var p := Pending(st);
    match outcome
    case Success(d) => (p.(loading := false), Some(d))
    case Failure(e) => (p.(error := Some(ErrorMessage(e, LapDetailFailed)), loading := false), None)
  }

  function ClearError(st: HookState): (r: HookState)
    ensures r.error.None? && r.session == st.session && r.loading == st.loading
  {
    st.(error := None)
  }

  function ClearSession(st: HookState): (r: HookState)
    ensures r.session.None? && r.error == st.error && r.loading == st.loading
  {
    st.(session := None)
  }

  /** Two states that differ only in their error or loading flag end a request identically:
      a request never shows an earlier error, nor depends on whether another was under way. */
  lemma RequestForgetsError(a: HookState, b: HookState, outcome: Result<Session, TelemetryApi.Exception>,
                            lap: Result<LapDetail, TelemetryApi.Exception>, fallback: string)
    requires a.session == b.session
    ensures LoadSession(a, outcome, fallback) == LoadSession(b, outcome, fallback)
    ensures FetchLapDetail(a, lap) == FetchLapDetail(b, lap)
  {
  }

  // ---------------------------------------------------------------- sequences of operations

  /** A call of one of the hook's operations, together with the outcome of its request. */
  datatype Op =
    | Uploaded(outcome: Result<Session, TelemetryApi.Exception>)
    | SessionFetched(outcome: Result<Session, TelemetryApi.Exception>)
    | LapFetched(lap: Result<LapDetail, TelemetryApi.Exception>)
    | ErrorCleared
    | SessionCleared
  {
    predicate IsRequest() {
      Uploaded? || SessionFetched? || LapFetched?
    }
  }

  /** The state after an operation completes. */
  function Apply(st: HookState, op: Op): (r: HookState)
    ensures r.session == (if SessionEffect(op).Some? then SessionEffect(op).value else st.session)
    ensures r.error == (if ErrorEffect(op).Some? then ErrorEffect(op).value else st.error)
    ensures r.loading == (st.loading && !op.IsRequest())
  {
    match op
    case Uploaded(outcome) => UploadFile(st, outcome).0
    case SessionFetched(outcome) => FetchSession(st, outcome).0
    case LapFetched(lap) => FetchLapDetail(st, lap).0
    case ErrorCleared => ClearError(st)
    case SessionCleared => ClearSession(st)
  }

  /** The state after the operations complete one after another. */
  function Run(st: HookState, ops: seq<Op>): HookState
    decreases |ops|
  {
    if |ops| == 0 then st else Run(Apply(st, ops[0]), ops[1..])
  }

  /** The session an operation leaves behind, when it writes one: a loaded session, or none after clearing. */
  function SessionEffect(op: Op): Option<Option<Session>> {
    match op
    case Uploaded(Success(s)) => Some(Some(s))
    case SessionFetched(Success(s)) => Some(Some(s))
    case SessionCleared => Some(None)
    case _ => None
  }

  /** The error an operation leaves behind, when it writes one: every request writes its own
      outcome's message or none, clearing writes none, and clearing the session writes nothing. */
  function ErrorEffect(op: Op): Option<Option<string>> {
    match op
    case Uploaded(Failure(e)) => Some(Some(ErrorMessage(e, UploadFailed)))
    case SessionFetched(Failure(e)) => Some(Some(ErrorMessage(e, SessionFailed)))
    case LapFetched(Failure(e)) => Some(Some(ErrorMessage(e, LapDetailFailed)))
    case SessionCleared => None
    case _ => Some(None)
  }

  /** The session written last in `ops`, or `start` when none writes one. */
  function LastSession(start: Option<Session>, ops: seq<Op>): Option<Session> {
    if |ops| == 0 then start
    else match SessionEffect(ops[|ops| - 1])
      case Some(v) => v
      case None => LastSession(start, ops[..|ops| - 1])
  }

  /** The error written last in `ops`, or `start` when none writes one. */
  function LastError(start: Option<string>, ops: seq<Op>): Option<string> {
    if |ops| == 0 then start
    else match ErrorEffect(ops[|ops| - 1])
      case Some(v) => v
      case None => LastError(start, ops[..|ops| - 1])
  }

  /** Running a longer sequence is running its prefix, then its last operation. */
  lemma {:induction false} RunSnoc(st: HookState, ops: seq<Op>, op: Op)
    ensures Run(st, ops + [op]) == Apply(Run(st, ops), op)
    decreases |ops|
  {
    if |ops| == 0 {
      assert ops + [op] == [op];
    } else {
      assert (ops + [op])[1..] == ops[1..] + [op];
      RunSnoc(Apply(st, ops[0]), ops[1..], op);
    }
  }

  /** The hook shows the session the last session-writing operation left, and the error
      the last error-writing one left; it is loading only while a request it started is unfinished. */
  lemma {:induction false} RunState(st: HookState, ops: seq<Op>)
    ensures Run(st, ops).session == LastSession(st.session, ops)
    ensures Run(st, ops).error == LastError(st.error, ops)
    ensures Run(st, ops).loading <==> st.loading && forall j :: 0 <= j < |ops| ==> !ops[j].IsRequest()
    decreases |ops|
  {
    if |ops| > 0 {
      var init, last := ops[..|ops| - 1], ops[|ops| - 1];
      assert init + [last] == ops;
      RunSnoc(st, init, last);
      RunState(st, init);
    }
  }

  /** From the initial state the hook is never left loading, and it shows a session only if some
      upload or fetch succeeded. */
  lemma InitialRun(ops: seq<Op>)
    ensures !Run(Initial, ops).loading
    ensures Run(Initial, ops).session.Some? ==>
      exists j :: 0 <= j < |ops| && SessionEffect(ops[j]) == Some(Run(Initial, ops).session)
  {
    RunState(Initial, ops);
    LastSessionWritten(Initial.session, ops);
  }

  /** A session shown at the end was either there at the start or written by one of the operations. */
  lemma {:induction false} LastSessionWritten(start: Option<Session>, ops: seq<Op>)
    ensures LastSession(start, ops) == start ||
      exists j :: 0 <= j < |ops| && SessionEffect(ops[j]) == Some(LastSession(start, ops))
  {
    if |ops| > 0 {
      var init := ops[..|ops| - 1];
      if SessionEffect(ops[|ops| - 1]).None? {
        LastSessionWritten(start, init);
        if LastSession(start, ops) != start {
          var j :| 0 <= j < |init| && SessionEffect(init[j]) == Some(LastSession(start, init));
          assert ops[j] == init[j];
        }
      }
    }
  }

  /** Clearing the error or the session twice is clearing it once. */
  lemma ClearIdempotent(st: HookState)
    ensures ClearError(ClearError(st)) == ClearError(st)
    ensures ClearSession(ClearSession(st)) == ClearSession(st)
    ensures ClearError(ClearSession(st)) == ClearSession(ClearError(st))
  {
  }

  // ---------------------------------------------------------------- with the API client's errors

  /** The error the hook shows after a request is the message of the `ApiError` or parse failure
      the API client classified the response as; the fallback messages never appear. */
  lemma HookShowsResponseError(st: HookState, response: TelemetryApi.Response<Session>)
    ensures var r := UploadFile(st, TelemetryApi.HandleResponse(response)).0;
      && (r.error.Some? <==> !TelemetryApi.IsOk(response.status) || response.body.Unparseable?)
      && (response.status == 413 ==> r.error == Some(TelemetryApi.TooLargeMessage))
      && (TelemetryApi.IsOk(response.status) && response.body.Unparseable? ==> r.error == Some(response.body.reason))
      && (!TelemetryApi.IsOk(response.status) && response.status != 413 ==>
            r.error == Some(TelemetryApi.DetailOr(
              if response.body.Json? then response.body.detail else None,
              TelemetryApi.ServerErrorPrefix + IntToString(response.status))))
      && (TelemetryApi.IsOk(response.status) && response.body.Json? ==> r.session == Some(response.body.value))
  {
  }

  /** A failed lap request leaves the session the page shows untouched, and shows the server's status. */
  lemma LapErrorKeepsSession(st: HookState, response: TelemetryApi.Response<LapDetail>)
    requires !TelemetryApi.IsOk(response.status) && response.status != 413
    requires response.body.Unparseable? || response.body.detail.None?
    ensures var r := FetchLapDetail(st, TelemetryApi.HandleResponse(response));
      && r.0.session == st.session && r.1.None?
      && r.0.error == Some(TelemetryApi.ServerErrorPrefix + IntToString(response.status))
  {
  }
}

=== FILE: telemetry_types.dfy ===
/** The records the telemetry service exchanges with the front end
    (`lib/types/telemetry.ts`); they carry no behaviour of their own. */
module TelemetryTypes {

  datatype LapSummary = LapSummary(
    lapNumber: int,
    lapTime: real,
    maxSpeed: real,
    avgRpm: real,
    distance: real,
    fuelUsed: real,
    fuelUsePerHourAvg: real)

  datatype Session = Session(
    sessionId: string,
    driver: string,
    vehicle: string,
    track: string,
    date: string,
    durationSeconds: real,
    lapCount: int,
    sampleRateHz: real,
    laps: seq<LapSummary>)

  datatype TelemetryPoint = TelemetryPoint(
    time: real,
    speed: real,
    rpm: real,
    throttle: real,
    brake: real,
    lat: real,
    lon: real,
    lapDist: real,
    lapDistPct: real)

  datatype LapDetail = LapDetail(lapNumber: int, lapTime: real, points: seq<TelemetryPoint>)
}

=== FILE: wrappers.dfy ===
/** Failure-compatible wrappers shared by the telemetry model:
    `Option` stands for a JavaScript value that may be `null`/`undefined`,
    `Result` for a call that either returns a value or throws. */
module Wrappers {

  datatype Option<+T> = None | Some(value: T) {

    predicate IsFailure() {
      None?
    }

    function PropagateFailure<U>(): Option<U>
      requires None?
    {
      None
    }

    function Extract(): T
      requires Some?
    {
      value
    }
  }

  datatype Result<+R, +E> = Success(value: R) | Failure(error: E) {

    predicate IsFailure() {
      Failure?
    }

    function PropagateFailure<U>(): Result<U, E>
      requires Failure?
    {
      Failure(error)
    }

    function Extract(): R
      requires Success?
    {
      value
    }
  }
}
